=== FILE: README.md ===
# Poloniex client: request building and response normalisation

This project models the core of a small Go client for the Poloniex
exchange API. It covers two parts of that client. The first builds the
request for each command: public commands are GET requests with a query
string, and authenticated commands are POST requests with a form body,
a nonce and the API key. The second normalises each response. The JSON
payload is decoded into a loose intermediate shape, and that shape is
turned into the public records (tickers, order books, trades,
currencies, loan orders, balances, the 24-hour volume). Records whose
numbers do not parse are dropped. Records that arrive keyed by a map key
take that key as their currency, pair or name.

The model is written in terms of the client itself:

- `Poloniex` holds the public records and constants: the endpoints and
  the `BalanceAccount` values.
- `Requests` builds query and form maps by last-write-wins assembly. It
  also renders integers in decimal as `%v` does for unsigned numbers and
  `%d` for signed ones. For each of the two renderings, a lemma proves
  that it reads back as the number, and another proves that every
  canonical numeral is the rendering of its value.
- `Filtering` is the best-effort "convert or skip, then append" loop
  that every slice conversion uses. It also models the same loop when a
  step can dereference a nil pointer and panic.
- `Enumeration` is Go's `range` over a map. The visiting order is a
  parameter that must enumerate the keys. The lemmas here show which
  facts do not depend on that order.
- `OrderBooks`, `Trades`, `Loans`, `Tickers`, `Currencies`, `Balances`
  and `Volume` each model one endpoint: its request, its conversion and
  the public function that joins the two.

Some behaviour of the libraries the client calls is not visible, so it
is passed in as a parameter:

- `fetch: Request -> Result<Raw, Error>` is the HTTP round trip plus the
  decoding of the envelope into the endpoint's intermediate shape.
- `Fmt` holds two functions. `parseFloat` stands for `strconv.ParseFloat`.
  `formatValue` stands for `fmt.Sprintf("%v")` on a JSON number, array
  or object. `Json.Text` prints strings, booleans and nil itself.
- `order: seq<string>` is the iteration order of a Go map.
- `nonce: Int64` is the clock reading that `tradeCall` takes.

A nil pointer in the decoded shape is modelled as `None`. The decoder
stores nil for a JSON `null` element, for example in
`[]*tradeHistoryFromJSON` or `map[string]*Ticker`.

## Model

| member | source | states |
|---|---|---|
| Requests.Assemble | client.go:369-374 | the keys of the assembled query or form are the base keys plus every parameter key |
| Requests.LastWriteWins | client.go:372-374 | when a key is set more than once, the last parameter with that key decides its value |
| Requests.BaseKept | client.go:370-374 | a base entry (`command`, `nonce`) keeps its value unless a parameter has the same key |
| Requests.Decimal | client.go:109 | the decimal form is never empty, and it starts with `0` only for zero (no leading zeros) |
| Requests.DecimalRoundTrip | client.go:109 | the decimal form of `n` is a canonical numeral and reads back as `n` |
| Requests.CanonicalRoundTrip | client.go:216-217 | every canonical numeral is the decimal form of the number it denotes, so rendering is onto the canonical numerals |
| Requests.SignedDecimal | client.go:464 | the `%d` form of the nonce is never empty and starts with a minus sign exactly when the nonce is negative |
| Requests.SignedDecimalRoundTrip | client.go:464 | the `%d` form of an integer is a canonical signed numeral and reads back as that integer |
| Requests.SignedCanonicalRoundTrip | client.go:464 | every canonical signed numeral is the `%d` form of the integer it denotes |
| Json.Text | client.go:158 | stands in for `fmt.Sprintf("%v", a[0])` on a decoded JSON value: a string prints as itself, a boolean as `true`/`false`, nil as `<nil>`, and a number, array or object as the abstract `formatValue` prints it |
| Requests.PublicRequest | client.go:361-379 | a public call is a GET to `https://poloniex.com/public`; its query keys are `command` plus the parameter keys |
| Requests.PublicCommand | client.go:369-374 | `command` holds the command name unless a parameter overrides it; if one does, the last such parameter wins |
| Requests.TradeRequest | client.go:461-491 | an authenticated call is a POST to `https://poloniex.com/tradingApi`; it carries the client's key, and its form keys are `command`, `nonce` and the parameter keys |
| Requests.TradeHeaders | client.go:486-488 | stands in for the `req.Header.Set` calls: the modelled headers, all but `Sign`, are `Accept: application/json`, `Content-Type: application/x-www-form-urlencoded` and `Key` set to the request's API key |
| Requests.TradeCommandAndNonce | client.go:462-468 | without overriding parameters, the form holds the command and the nonce in decimal with its sign |
| Filtering.FilterMap | client.go:151-170 | the converted slice is never longer than the input |
| Filtering.FilterMapIndexed | client.go:151-170 | the output is the order-preserving subsequence of the successful conversions: strictly increasing source positions, and a position is kept exactly when its conversion succeeds |
| Filtering.FilterMapMembers | client.go:225-250 | a record is in the output exactly when some input converts to it |
| Filtering.FilterMapKeepsAll | client.go:225-250 | nothing is dropped exactly when every input converts |
| Filtering.FilterMapInverts | client.go:225-250 | converting the encoded form of a list gives the list back when each element's encoding converts back to it |
| Filtering.RunRecovers | client.go:225-226 | a loop whose steps may crash panics exactly when some step crashes; when it returns, its result equals the loop that skips instead of crashing |
| Filtering.DerefRecovers | client.go:225-226 | wherever the dereferencing step keeps or skips an element, the nil-skipping conversion agrees with it (where it crashes is stated by the `*AsWrittenPanics` lemmas) |
| Enumeration.KeyedMembers | client.go:389-399 | a record is in the output exactly when some entry of the map converts to it |
| Enumeration.KeyedDistinct | client.go:43-46 | when every record carries the key of its entry, no two records share a key and no record repeats |
| Enumeration.KeyedOrderIndependent | client.go:43-46 | two visiting orders of one map give permutations of the same records |
| Enumeration.KeyedAsWritten | client.go:43-44 | a map loop that dereferences each value panics exactly when some value is nil; otherwise it returns the nil-skipping result |
| Enumeration.KeyedNilMembers | client.go:43-46 | with nil values skipped, a record is in the output exactly when a non-nil entry converts to it |
| OrderBooks.ConvertOrderBook | client.go:145-194 | the converted book copies the frozen flag and sequence number, leaves the pair empty, and each side holds exactly the well-formed entries of the raw side, parsed into orders, in their order |
| OrderBooks.ConvertSideKept | client.go:151-191 | an entry survives exactly when it has two elements, the text of its price parses and its amount is a JSON number; survivors keep their order and hold the parsed price and the amount |
| OrderBooks.ParseOrder | client.go:151-168 | an ask or bid entry converts exactly when it has two elements, the `%v` text of its first parses and its second is a JSON number; the result holds that parsed price and that number |
| OrderBooks.ParseOrderSpec | client.go:152-169 | lifts the statement of `ParseOrder` through the `OrderParser` closure, the form in which `ConvertSideKept` uses it |
| OrderBooks.StringAmountDropped | client.go:164-167 | an amount sent as a JSON string drops the entry, whatever the price |
| OrderBooks.ConvertSideRoundTrip | client.go:151-170 | the wire form of a list of orders (price as text, amount as number) converts back to the list |
| OrderBooks.ConvertSideExample | client.go:151-170 | asks `[["102.5",3.0],["bad",1.0],[99.0]]` convert to the single order (102.5, 3.0) |
| OrderBooks.OrderBookQuery | client.go:107-112 | the single-book query is exactly command `returnOrderBook`, the pair and the depth in decimal |
| OrderBooks.GetOrderBook | client.go:100-120 | the pair `"all"` fails with the dedicated error before any request; a transport failure passes through; a success is labelled with the requested pair, keeps the frozen flag and sequence number, and each side holds exactly the well-formed fetched entries, parsed, in their order |
| OrderBooks.AllOrderBooksQuery | client.go:125-130 | the all-books query is the single-book query for the pair `"all"` |
| OrderBooks.AllOrderBooksKeyed | client.go:134-140 | the all-books result holds, for every key with a book, that book converted and labelled with its key, and no other book; pairs are distinct |
| OrderBooks.AllOrderBooksMembers | client.go:134-140 | a book is in the result exactly when it is the conversion of a present book, labelled with its key |
| OrderBooks.AllOrderBooksDistinct | client.go:134-140 | no two books in the result carry the same pair |
| OrderBooks.AllOrderBooksOrderIndependent | client.go:134-140 | the map's visiting order changes only the order of the books |
| OrderBooks.AllOrderBooksAsWrittenPanics | client.go:135-136 | as written, the loop panics exactly when some key holds a null book |
| OrderBooks.NullBookPanics | client.go:135-136 | the response `{"BTC_ETH": null}` makes the loop as written panic; the corrected loop returns no book |
| OrderBooks.GetAllOrderBooks | client.go:122-143 | a transport failure passes through; otherwise the result holds, for every key with a book, that book converted and labelled with its key, and no other book; pairs are distinct |
| Trades.ParseTradeSpec | client.go:226-249 | a trade converts exactly when it is present and its rate, amount and total all parse; identifiers, date and side are copied |
| Trades.TradeHistoryKept | client.go:224-250 | the trade history is the order-preserving subsequence of the present trades whose three numbers parse, each converted field by field |
| Trades.TradeHistoryRoundTrip | client.go:224-250 | the wire form of a trade history converts back to it when each rendered number reads back |
| Trades.TradeHistoryExample | client.go:230-234 | a trade whose amount is `"abc"` is dropped and the trade after it is kept |
| Trades.TradeHistoryAsWrittenPanics | client.go:225-226 | as written, the loop panics exactly when some trade is null; when it returns, it returns the corrected result |
| Trades.NullTradePanics | client.go:225-226 | the response `[null]` makes the loop as written panic; the corrected loop returns no trade |
| Trades.TradeHistoryQuery | client.go:212-220 | the query carries the command and the pair, and carries `start` and `end` in decimal exactly when both are non-zero |
| Trades.RangeQuery | client.go:215-218 | with both ends non-zero, the query is exactly command, pair, start and end |
| Trades.PairQuery | client.go:212-215 | with either end zero, the query is exactly command and pair |
| Trades.TradeHistoryMembers | client.go:224-250 | every converted trade is some received trade with its numbers parsed, and every received trade whose numbers parse is converted |
| Trades.GetTradeHistory | client.go:209-253 | a transport failure passes through; a success returns no more trades than were received, each one a received trade with its numbers parsed, and includes every received trade whose numbers parse |
| Loans.ConvertLoanOrders | client.go:313-351 | neither side of the converted loan orders is longer than its raw side |
| Loans.ParseLoanSpec | client.go:316-331 | a loan converts exactly when it is present and its rate and amount parse; the range bounds are copied |
| Loans.LoansKept | client.go:315-332 | each side is the order-preserving subsequence of its present, parsable loans, each converted field by field |
| Loans.LoanSidesSeparate | client.go:315-351 | every converted offer comes from an offer, and every converted demand from a demand |
| Loans.LoanOrdersRoundTrip | client.go:313-351 | the wire form of loan orders converts back to them when each rendered number reads back |
| Loans.LoanOrdersAsWrittenPanics | client.go:315-316 | as written, the conversion panics exactly when some offer or demand is null |
| Loans.NullLoanPanics | client.go:315-316 | the offers `[null]` make the conversion as written panic; the corrected conversion returns empty sides |
| Loans.LoanOrdersQuery | client.go:309 | the query is exactly command `returnLoanOrders` and the currency |
| Loans.LoansMembers | client.go:315-332 | every converted loan is some received loan of that side with its numbers parsed, and every received loan whose numbers parse is converted |
| Loans.GetLoanOrders | client.go:306-354 | a transport failure passes through; on a success each side is no longer than what was received, holds only conversions of that side's loans, and includes every loan of that side whose numbers parse |
| Tickers.TickersKeyed | client.go:42-48 | every ticker is the payload found under its key, with the key as its currency; every key with a ticker yields one; currencies are distinct |
| Tickers.TickersDistinct | client.go:43-46 | no two tickers carry the same currency |
| Tickers.TickersOrderIndependent | client.go:43-46 | the map's visiting order changes only the order of the tickers |
| Tickers.TickersAsWrittenPanics | client.go:43-44 | as written, the loop panics exactly when some key holds a null ticker |
| Tickers.NullTickerPanics | client.go:43-44 | the response `{"BTC_ETH": null}` makes the loop as written panic; the corrected loop returns no ticker |
| Tickers.GetTickers | client.go:35-49 | a transport failure passes through; otherwise every ticker is the payload found under its key with the key as its currency, every key with a ticker yields one, and currencies are distinct |
| Currencies.CurrenciesKeyed | client.go:279-285 | every currency is the payload found under its key, with the key as its name; every key with a currency yields one; names are distinct |
| Currencies.CurrenciesDistinct | client.go:280-283 | no two currencies carry the same name |
| Currencies.CurrenciesOrderIndependent | client.go:280-283 | the map's visiting order changes only the order of the currencies |
| Currencies.CurrenciesAsWrittenPanics | client.go:280-281 | as written, the loop panics exactly when some key holds a null currency |
| Currencies.NullCurrencyPanics | client.go:280-281 | the response `{"BTC": null}` makes the loop as written panic; the corrected loop returns no currency |
| Currencies.GetCurrencies | client.go:272-286 | a transport failure passes through; otherwise every currency is the payload found under its key with the key as its name, every key with a currency yields one, and names are distinct |
| Balances.BalancesKeyed | client.go:388-401 | a balance is reported for a currency exactly when the response holds it with an amount that parses, and it carries the parsed amount; currencies are distinct |
| Balances.BalancesOrderIndependent | client.go:389-399 | the map's visiting order changes only the order of the balances |
| Balances.BalancesRoundTrip | client.go:388-401 | a response rendered from currency amounts converts back to exactly those balances, when each rendered amount reads back |
| Balances.BalancesForm | client.go:384 | the `returnBalances` form is exactly the command and the nonce, under the client's key |
| Balances.GetBalances | client.go:381-402 | a transport failure passes through; otherwise a balance is returned exactly for each entry whose amount parses, carrying the parsed amount, and no two balances share a currency |
| Balances.ParseCompleteBalanceSpec | client.go:430-450 | one entry converts exactly when its available, on-orders and BTC-value strings all parse |
| Balances.CompleteBalancesKeyed | client.go:428-453 | a complete balance is reported for a currency exactly when its entry is present and all three amounts parse, and it carries them; currencies are distinct |
| Balances.CompleteBalancesDistinct | client.go:429-451 | no two complete balances carry the same currency |
| Balances.CompleteBalancesOrderIndependent | client.go:429-451 | the map's visiting order changes only the order of the complete balances |
| Balances.CompleteBalancesAsWrittenPanics | client.go:429-430 | as written, the loop panics exactly when some currency holds a null entry |
| Balances.NullCompleteBalancePanics | client.go:429-430 | the response `{"BTC": null}` makes the loop as written panic; the corrected loop reports no balance |
| Balances.CompleteBalancesForm | client.go:416-424 | the form holds the command and the nonce; it holds `account` exactly when the account is not the exchange account, and then with its value |
| Balances.GetCompleteBalances | client.go:413-454 | a transport failure passes through; otherwise a complete balance is returned for a currency exactly when its entry is present and all three amounts parse, carrying them; currencies are distinct |
| Volume.Probe | client.go:66-77 | stands in for the two `json.Unmarshal` attempts: the `map[string]string` attempt accepts an object of strings and nulls (a null field reads as `""`) and the literal null (an empty market); failing that, the `string` attempt accepts a string as a total; any other value is rejected |
| Volume.SplitVolumes | client.go:58-87 | the split succeeds exactly when every visited entry is present and has one of the two shapes; it then files each key under its shape with the entry's value, and fails with the shape error otherwise |
| Volume.FileExtends | client.go:79-84 | filing one more classified entry extends a split of the visited keys to a split that includes that key |
| Volume.SplitVolumesExpected | client.go:63-87 | for any visiting order, the call succeeds exactly when every entry classifies, and it then returns the loop-free reference result; markets and totals partition the keys |
| Volume.SplitIsExpected | client.go:63-87 | a split over an enumeration of the keys equals the loop-free reference result |
| Volume.SplitMarketsExpected | client.go:84 | the markets of a split are the keys that probe as market volumes |
| Volume.SplitTotalsExpected | client.go:79 | the totals of a split are the keys that probe as strings |
| Volume.SplitVolumesOrderIndependent | client.go:63-87 | the map's visiting order does not change the result |
| Volume.SplitVolumesAsWritten | client.go:63-87 | the loop as written panics only when some visited entry is null, and every error it returns is the shape error |
| Volume.SplitVolumesAsWrittenPanics | client.go:63-68 | as written, the loop panics exactly when, in visiting order, the first entry that does not classify is null; when it returns, it returns the corrected result |
| Volume.AsWrittenAgrees | client.go:63-87 | when the loop as written returns, it returns what the corrected loop returns |
| Volume.AsWrittenPanicsAtNil | client.go:63-68 | the loop as written panics exactly when it reaches a null entry |
| Volume.NullVolumePanics | client.go:63-68 | the response `{"totalBTC": null}` makes the loop as written panic; the corrected loop fails the call |
| Volume.EncodeMarketProbes | client.go:66-68 | the wire form of a market volume decodes back into that volume |
| Volume.VolumeRoundTrip | client.go:58-87 | the wire form of a volume (totals as strings, markets as objects of strings) splits back into that volume, in any visiting order |
| Volume.VolumeExample | client.go:58-87 | `{"totalBTC": "7364.48", "BTC_LTC": {"BTC": "2.23", "LTC": "87.10"}}` splits into one total and one market |
| Volume.Get24hVolume | client.go:51-88 | a transport failure passes through; otherwise the call succeeds exactly when every entry classifies, and it then returns the loop-free reference result: markets and totals partition the response's keys, each with its value |

## Left out

- Sending the request and decoding the envelope (client.go:494-520) is the `fetch` parameter. When the envelope does not decode, the whole call fails; that is one `Failure` the transport returns.
- handleReturnedError (client.go:522-532) is never called, so it is not modelled.
- The HMAC-SHA512 `Sign` header (helper/helper.go:10-18, client.go:489) is not modelled. `Requests.TradeHeaders` holds only the other three headers.
- The nonce comes from the clock (client.go:464), so it is a parameter. Nothing here proves that nonces increase: the code takes a clock reading that is not guaranteed to be monotonic, so no such property is claimed.
- URL and form encoding of the assembled maps (client.go:376, 470) is not modelled. Requests carry the maps themselves.
- GetChartData (client.go:255-270) is not modelled. It decodes the payload straight into the public records and converts nothing.
- IEEE-754 parsing and printing are not modelled. `Fmt.parseFloat` and `Fmt.formatValue` are abstract functions, and amounts are `real`.
- The logging and the warning that `New` prints for missing credentials (client.go:24-32) are left out. The model has no observable behaviour for them.
- The command-line program under cmd/ is not part of this model.
- Go map iteration order is unspecified, so it is the `order` parameter. Every keyed result is also proved to be independent of it up to permutation.
- Decoding the JSON of tickers and currencies into their typed records is done by the decoder, inside `fetch`. The model takes those records as decoded.
- Trades.GetTradeHistory: its contract states which trades the result holds, but not their order or multiplicity. `Trades.TradeHistoryKept` states both for the conversion the function applies.
- Loans.GetLoanOrders: its contract states which loans each side holds, but not their order or multiplicity. `Loans.LoansKept` states both for each side.
- Volume.Get24hVolume: the error a failed probe returns is the `json.Unmarshal` error of the map attempt. Here it is the single value `VolumeEntryShape`.

## Findings

Every loop over decoded pointer records (the seven rows below)
dereferences the pointers without checking for nil, so a JSON `null`
element panics inside the library. The loops over `map[string]string`
in `GetBalances` hold no pointers, and the ask and bid loops of
`convertOrderBook` reject a null entry through their `len(a) < 2`
guard, so neither is affected. The as-written member models each
affected loop with a step that crashes on nil. The corrected member,
which the facades use, skips the null record.

For the 24-hour volume the corrected loop fails the call instead: a nil
`*json.RawMessage` counts as unclassified (`Volume.Classified` requires
a present entry), just as an entry of neither shape fails the call.
This is a choice. Handing the bytes `null` to the map attempt would
instead file an empty market, as `Volume.Probe` shows for a literal
null.

| source | as written | input that shows it | evidently intended | confidence | as-written member | corrected member |
|---|---|---|---|---|---|---|
| client.go:225-226 | `t.Rate` read through a nil `*tradeHistoryFromJSON` | trade history `[null]` | skip the null trade | not executed | Trades.TradeHistoryAsWrittenPanics | Trades.TradeHistoryKept |
| client.go:315-316 | `o.Rate` read through a nil `*loanFromJSON` (demands likewise at 334-335) | `{"offers": [null], "demands": []}` | skip the null loan | not executed | Loans.LoanOrdersAsWrittenPanics | Loans.LoansKept |
| client.go:43-44 | `v.Currency = k` on a nil `*Ticker` | `{"BTC_ETH": null}` | skip the null ticker | not executed | Tickers.TickersAsWrittenPanics | Tickers.TickersKeyed |
| client.go:280-281 | `v.Name = k` on a nil `*Currency` | `{"BTC": null}` | skip the null currency | not executed | Currencies.CurrenciesAsWrittenPanics | Currencies.CurrenciesKeyed |
| client.go:135-147 | `convertOrderBook(v)` reads `o.IsFrozen` through a nil `*orderBookFromJSON` | `{"BTC_ETH": null}` with pair `all` | skip the null book | not executed | OrderBooks.AllOrderBooksAsWrittenPanics | OrderBooks.AllOrderBooksKeyed |
| client.go:429-430 | `v.Available` read through a nil `*balanceFromJSON` | `{"BTC": null}` | skip the null balance | not executed | Balances.CompleteBalancesAsWrittenPanics | Balances.CompleteBalancesKeyed |
| client.go:63-68 | `*v` on a nil `*json.RawMessage` | `{"totalBTC": null}` | fail the call with a shape error | not executed | Volume.SplitVolumesAsWrittenPanics | Volume.SplitVolumesExpected |

=== FILE: balances.dfy ===
/** `GetBalances` and `GetCompleteBalances`: authenticated calls whose
    responses map currency codes to decimal strings. */
module Balances {
  import opened Wrappers
  import opened Json
  import opened Poloniex
  import opened Filtering
  import opened Enumeration
  import opened Requests

  /** One entry of `returnBalances`: kept when the amount parses. */
  function ParseBalance(fm: Fmt): ((string, string)) -> Option<Balance>
  {
    (e: (string, string)) =>
      match fm.parseFloat(e.1)
      case None => None
      case Some(a) => Some(Balance(e.0, a))
  }

  /** The loop of `GetBalances`, visiting the keys in `order`. */
  function ConvertBalances(fm: Fmt, raw: map<string, string>, order: seq<string>): seq<Balance>
    requires IsEnumeration(order, raw)
  {
    FilterMap(Entries(raw, order), ParseBalance(fm))
  }

  /** A balance is reported for a currency exactly when the response
      holds that currency with an amount that parses, and it carries
      the parsed amount; no currency is reported twice. */
  lemma BalancesKeyed(fm: Fmt, raw: map<string, string>, order: seq<string>)
    requires IsEnumeration(order, raw)
    ensures var r := ConvertBalances(fm, raw, order);
      && (forall b :: b in r <==> b.currency in raw && fm.parseFloat(raw[b.currency]) == Some(b.amount))
      && (forall i, j :: 0 <= i < j < |r| ==> r[i].currency != r[j].currency)
  {
    var f := ParseBalance(fm);
    var key := (b: Balance) => b.currency;
    KeyedMembers(raw, order, f);
    forall k | k in raw && f((k, raw[k])).Some?
      ensures key(f((k, raw[k])).value) == k
    {
    }
    KeyedDistinct(raw, order, f, key);
    var r := ConvertBalances(fm, raw, order);
    assert r == FilterMap(Entries(raw, order), f);
    forall i, j | 0 <= i < j < |r|
      ensures r[i].currency != r[j].currency
    {
      assert key(r[i]) != key(r[j]);
    }
  }

  /** The visiting order changes only the order of the balances. */
  lemma BalancesOrderIndependent(fm: Fmt, raw: map<string, string>, o1: seq<string>, o2: seq<string>)
    requires IsEnumeration(o1, raw) && IsEnumeration(o2, raw)
    ensures multiset(ConvertBalances(fm, raw, o1)) == multiset(ConvertBalances(fm, raw, o2))
  {
    KeyedOrderIndependent(raw, o1, o2, ParseBalance(fm), (b: Balance) => b.currency);
  }

  /** Writing each amount back with `render` rebuilds a response whose
      conversion reports exactly the original balances. */
  lemma BalancesRoundTrip(fm: Fmt, render: real -> string, bs: map<string, real>, order: seq<string>)
    requires IsEnumeration(order, bs)
    requires forall k :: k in bs ==> fm.parseFloat(render(bs[k])) == Some(bs[k])
    ensures var raw := map k | k in bs :: render(bs[k]);
      IsEnumeration(order, raw) &&
      forall b :: b in ConvertBalances(fm, raw, order) <==> b.currency in bs && b.amount == bs[b.currency]
  {
    var raw := map k | k in bs :: render(bs[k]);
    assert raw.Keys == bs.Keys;
    BalancesKeyed(fm, raw, order);
  }

  function BalancesRequest(c: Client, nonce: Int64): Request
  {
    TradeRequest(c, "returnBalances", nonce, [])
  }

  /** The `returnBalances` call posts the command and the nonce and
      nothing else, under the client's key. */
  lemma BalancesForm(c: Client, nonce: Int64)
    ensures BalancesRequest(c, nonce).apiKey == c.key
    ensures BalancesRequest(c, nonce).form ==
      map["command" := "returnBalances", "nonce" := SignedDecimal(nonce as int)]
  {
    TradeCommandAndNonce(c, "returnBalances", nonce, []);
  }

  /** `GetBalances`: a transport failure is returned unchanged;
      otherwise the result holds the parsable entries of the response. */
  function GetBalances(fm: Fmt, fetch: Request -> Result<map<string, string>, Error>, c: Client, nonce: Int64, order: seq<string>)
    : (r: Result<seq<Balance>, Error>)
    requires fetch(BalancesRequest(c, nonce)).Success? ==> IsEnumeration(order, fetch(BalancesRequest(c, nonce)).value)
    ensures r.Failure? <==> fetch(BalancesRequest(c, nonce)).Failure?
    ensures r.Failure? ==> r.error == fetch(BalancesRequest(c, nonce)).error
    ensures r.Success? ==> forall b :: b in r.value <==>
      (var raw := fetch(BalancesRequest(c, nonce)).value;
       b.currency in raw && fm.parseFloat(raw[b.currency]) == Some(b.amount))
    ensures r.Success? ==> forall i, j :: 0 <= i < j < |r.value| ==> r.value[i].currency != r.value[j].currency
  {
    match fetch(BalancesRequest(c, nonce))
    case Failure(e) => Failure(e)
    case Success(raw) =>
      BalancesKeyed(fm, raw, order);
      Success(ConvertBalances(fm, raw, order))
  }

  /** The three decimal strings of one `returnCompleteBalances` entry. */
  datatype BalanceRaw = BalanceRaw(available: string, onOrders: string, btcValue: string)

  /** Kept only when all three amounts parse. */
  function ParseCompleteBalance(fm: Fmt, k: string, b: BalanceRaw): Option<CompleteBalance>
  {
    match fm.parseFloat(b.available)
    case None => None
    case Some(a) =>
      match fm.parseFloat(b.onOrders)
      case None => None
      case Some(o) =>
        match fm.parseFloat(b.btcValue)
        case None => None
        case Some(v) => Some(CompleteBalance(k, a, o, v))
  }

  function CompleteBalanceParser(fm: Fmt): (string, BalanceRaw) -> Option<CompleteBalance>
  {
    (k: string, b: BalanceRaw) => ParseCompleteBalance(fm, k, b)
  }

  /** The loop of `GetCompleteBalances`; a key holding a nil entry is
      skipped. */
  function ConvertCompleteBalances(fm: Fmt, raw: map<string, Option<BalanceRaw>>, order: seq<string>): seq<CompleteBalance>
    requires IsEnumeration(order, raw)
  {
    FilterMap(Entries(raw, order), SkipNilEntry(CompleteBalanceParser(fm)))
  }

  /** The same loop as written: a nil entry is dereferenced. */
  function ConvertCompleteBalancesAsWritten(fm: Fmt, raw: map<string, Option<BalanceRaw>>, order: seq<string>)
    : Exec<seq<CompleteBalance>>
    requires IsEnumeration(order, raw)
  {
    Run(Entries(raw, order), DerefEntry(CompleteBalanceParser(fm)))
  }

  /** The conversion of one entry, stated field by field. */
  lemma ParseCompleteBalanceSpec(fm: Fmt, k: string, b: BalanceRaw, cb: CompleteBalance)
    ensures ParseCompleteBalance(fm, k, b) == Some(cb) <==>
      && cb.currency == k
      && fm.parseFloat(b.available) == Some(cb.available)
      && fm.parseFloat(b.onOrders) == Some(cb.onOrders)
      && fm.parseFloat(b.btcValue) == Some(cb.btcValue)
  {
  }

  /** A complete balance is reported for a currency exactly when the
      response holds a non-nil entry for it whose three amounts all
      parse, and it carries the parsed amounts; no currency is reported
      twice. */
  lemma CompleteBalancesKeyed(fm: Fmt, raw: map<string, Option<BalanceRaw>>, order: seq<string>)
    requires IsEnumeration(order, raw)
    ensures var r := ConvertCompleteBalances(fm, raw, order);
      && (forall cb :: cb in r <==>
            && cb.currency in raw && raw[cb.currency].Some?
            && fm.parseFloat(raw[cb.currency].value.available) == Some(cb.available)
            && fm.parseFloat(raw[cb.currency].value.onOrders) == Some(cb.onOrders)
            && fm.parseFloat(raw[cb.currency].value.btcValue) == Some(cb.btcValue))
      && (forall i, j :: 0 <= i < j < |r| ==> r[i].currency != r[j].currency)
  {
    var r := ConvertCompleteBalances(fm, raw, order);
    KeyedNilMembers(raw, order, CompleteBalanceParser(fm));
    forall cb
      ensures cb in r <==>
            && cb.currency in raw && raw[cb.currency].Some?
            && fm.parseFloat(raw[cb.currency].value.available) == Some(cb.available)
            && fm.parseFloat(raw[cb.currency].value.onOrders) == Some(cb.onOrders)
            && fm.parseFloat(raw[cb.currency].value.btcValue) == Some(cb.btcValue)
    {
      if cb.currency in raw && raw[cb.currency].Some? {
        ParseCompleteBalanceSpec(fm, cb.currency, raw[cb.currency].value, cb);
      }
      forall k | k in raw && raw[k].Some? && ParseCompleteBalance(fm, k, raw[k].value) == Some(cb)
        ensures k == cb.currency
      {
        ParseCompleteBalanceSpec(fm, k, raw[k].value, cb);
      }
    }
    CompleteBalancesDistinct(fm, raw, order);
  }

  lemma CompleteBalancesDistinct(fm: Fmt, raw: map<string, Option<BalanceRaw>>, order: seq<string>)
    requires IsEnumeration(order, raw)
    ensures var r := ConvertCompleteBalances(fm, raw, order);
      forall i, j :: 0 <= i < j < |r| ==> r[i].currency != r[j].currency
  {
    var f := SkipNilEntry(CompleteBalanceParser(fm));
    var key := (cb: CompleteBalance) => cb.currency;
    forall k | k in raw && f((k, raw[k])).Some?
      ensures key(f((k, raw[k])).value) == k
    {
      assert f((k, raw[k])) == ParseCompleteBalance(fm, k, raw[k].value);
    }
    KeyedDistinct(raw, order, f, key);
    var r := ConvertCompleteBalances(fm, raw, order);
    assert r == FilterMap(Entries(raw, order), f);
    forall i, j | 0 <= i < j < |r|
      ensures r[i].currency != r[j].currency
    {
      assert key(r[i]) != key(r[j]);
    }
  }

  /** The visiting order changes only the order of the balances. */
  lemma CompleteBalancesOrderIndependent(fm: Fmt, raw: map<string, Option<BalanceRaw>>, o1: seq<string>, o2: seq<string>)
    requires IsEnumeration(o1, raw) && IsEnumeration(o2, raw)
    ensures multiset(ConvertCompleteBalances(fm, raw, o1)) == multiset(ConvertCompleteBalances(fm, raw, o2))
  {
    var f := SkipNilEntry(CompleteBalanceParser(fm));
    forall k | k in raw && f((k, raw[k])).Some?
      ensures f((k, raw[k])).value.currency == k
    {
      assert f((k, raw[k])) == ParseCompleteBalance(fm, k, raw[k].value);
    }
    KeyedOrderIndependent(raw, o1, o2, f, (cb: CompleteBalance) => cb.currency);
  }

  /** As written, the loop panics exactly when some key holds a nil
      entry; when it returns, it returns the corrected result. */
  lemma CompleteBalancesAsWrittenPanics(fm: Fmt, raw: map<string, Option<BalanceRaw>>, order: seq<string>)
    requires IsEnumeration(order, raw)
    ensures ConvertCompleteBalancesAsWritten(fm, raw, order).Panics? <==> exists k :: k in raw && raw[k].None?
    ensures ConvertCompleteBalancesAsWritten(fm, raw, order).Returns? ==>
      ConvertCompleteBalancesAsWritten(fm, raw, order).value == ConvertCompleteBalances(fm, raw, order)
  {
    KeyedAsWritten(raw, order, CompleteBalanceParser(fm));
  }

  /** A response `{"BTC": null}` makes the loop as written panic; the
      corrected loop reports no balance. */
  lemma NullCompleteBalancePanics(fm: Fmt)
    ensures ConvertCompleteBalancesAsWritten(fm, map["BTC" := None], ["BTC"]) == Panics
    ensures ConvertCompleteBalances(fm, map["BTC" := None], ["BTC"]) == []
  {
    var raw: map<string, Option<BalanceRaw>> := map["BTC" := None];
    CompleteBalancesAsWrittenPanics(fm, raw, ["BTC"]);
    assert Entries(raw, ["BTC"])[..0] == [];
  }

  /** The `account` parameter is sent only for a non-empty account. */
  function AccountParams(account: BalanceAccount): seq<Param>
  {
    if account != "" then [Param("account", account)] else []
  }

  function CompleteBalancesRequest(c: Client, nonce: Int64, account: BalanceAccount): Request
  {
    TradeRequest(c, "returnCompleteBalances", nonce, AccountParams(account))
  }

  /** The `returnCompleteBalances` call posts the command and the nonce,
      and the account exactly when it is not the exchange account. */
  lemma CompleteBalancesForm(c: Client, nonce: Int64, account: BalanceAccount)
    ensures var r := CompleteBalancesRequest(c, nonce, account);
      && r.apiKey == c.key
      && r.form["command"] == "returnCompleteBalances"
      && r.form["nonce"] == SignedDecimal(nonce as int)
      && ("account" in r.form <==> account != ExchangeAccountOnly)
      && ("account" in r.form ==> r.form["account"] == account)
      && r.form.Keys <= {"command", "nonce", "account"}
  {
    var ps := AccountParams(account);
    TradeCommandAndNonce(c, "returnCompleteBalances", nonce, ps);
    if account != "" {
      LastWriteWins(map["command" := "returnCompleteBalances", "nonce" := SignedDecimal(nonce as int)], ps, 0);
    }
  }

  /** `GetCompleteBalances`: a transport failure is returned unchanged;
      otherwise the result holds one balance per non-nil entry whose
      amounts all parse, carrying the parsed amounts, and no two share a
      currency. */
  function GetCompleteBalances(fm: Fmt, fetch: Request -> Result<map<string, Option<BalanceRaw>>, Error>,
                               c: Client, nonce: Int64, account: BalanceAccount, order: seq<string>)
    : (r: Result<seq<CompleteBalance>, Error>)
    requires var req := CompleteBalancesRequest(c, nonce, account);
      fetch(req).Success? ==> IsEnumeration(order, fetch(req).value)
    ensures r.Failure? <==> fetch(CompleteBalancesRequest(c, nonce, account)).Failure?
    ensures r.Failure? ==> r.error == fetch(CompleteBalancesRequest(c, nonce, account)).error
    ensures r.Success? ==> var raw := fetch(CompleteBalancesRequest(c, nonce, account)).value;
      && (forall cb :: cb in r.value <==>
            && cb.currency in raw && raw[cb.currency].Some?
            && fm.parseFloat(raw[cb.currency].value.available) == Some(cb.available)
            && fm.parseFloat(raw[cb.currency].value.onOrders) == Some(cb.onOrders)
            && fm.parseFloat(raw[cb.currency].value.btcValue) == Some(cb.btcValue))
      && (forall i, j :: 0 <= i < j < |r.value| ==> r.value[i].currency != r.value[j].currency)
  {
    match fetch(CompleteBalancesRequest(c, nonce, account))
    case Failure(e) => Failure(e)
    case Success(raw) =>
      CompleteBalancesKeyed(fm, raw, order);
      Success(ConvertCompleteBalances(fm, raw, order))
  }
}

=== FILE: currencies.dfy ===
/** `GetCurrencies`: one currency per key of the response, named after
    its key. */
module Currencies {
  import opened Wrappers
  import opened Poloniex
  import opened Filtering
  import opened Enumeration
  import opened Requests

  /** The key overrides whatever name the payload carried. */
  const NameCurrency: (string, Currency) -> Option<Currency> :=
    (k: string, c: Currency) => Some(c.(name := k))

  /** The loop of `GetCurrencies`, visiting the keys in `order`; a key
      holding a nil currency is skipped. */
  function ConvertCurrencies(raw: map<string, Option<Currency>>, order: seq<string>): seq<Currency>
    requires IsEnumeration(order, raw)
  {
    FilterMap(Entries(raw, order), SkipNilEntry(NameCurrency))
  }

  /** The same loop as written: a nil currency is dereferenced. */
  function ConvertCurrenciesAsWritten(raw: map<string, Option<Currency>>, order: seq<string>): Exec<seq<Currency>>
    requires IsEnumeration(order, raw)
  {
    Run(Entries(raw, order), DerefEntry(NameCurrency))
  }

  /** Every currency is named after the key it was received under, in
      place of any name in its payload, and is otherwise the payload
      unchanged; every key holding a currency yields one, and no two
      currencies share a name. */
  lemma CurrenciesKeyed(raw: map<string, Option<Currency>>, order: seq<string>)
    requires IsEnumeration(order, raw)
    ensures var r := ConvertCurrencies(raw, order);
      && (forall c :: c in r <==> c.name in raw && raw[c.name].Some? && c == raw[c.name].value.(name := c.name))
      && (forall k :: k in raw && raw[k].Some? ==> exists c :: c in r && c.name == k)
      && (forall i, j :: 0 <= i < j < |r| ==> r[i].name != r[j].name)
  {
    var r := ConvertCurrencies(raw, order);
    KeyedNilMembers(raw, order, NameCurrency);
    forall k | k in raw && raw[k].Some?
      ensures exists c :: c in r && c.name == k
    {
      var c := raw[k].value.(name := k);
      assert c in r;
    }
    CurrenciesDistinct(raw, order);
  }

  lemma CurrenciesDistinct(raw: map<string, Option<Currency>>, order: seq<string>)
    requires IsEnumeration(order, raw)
    ensures var r := ConvertCurrencies(raw, order);
      forall i, j :: 0 <= i < j < |r| ==> r[i].name != r[j].name
  {
    var f := SkipNilEntry(NameCurrency);
    var key := (c: Currency) => c.name;
    forall k | k in raw && f((k, raw[k])).Some?
      ensures key(f((k, raw[k])).value) == k
    {
      assert f((k, raw[k])).value == raw[k].value.(name := k);
    }
    KeyedDistinct(raw, order, f, key);
    var r := ConvertCurrencies(raw, order);
    assert r == FilterMap(Entries(raw, order), f);
    forall i, j | 0 <= i < j < |r|
      ensures r[i].name != r[j].name
    {
      assert key(r[i]) != key(r[j]);
    }
  }

  /** The visiting order changes only the order of the currencies. */
  lemma CurrenciesOrderIndependent(raw: map<string, Option<Currency>>, o1: seq<string>, o2: seq<string>)
    requires IsEnumeration(o1, raw) && IsEnumeration(o2, raw)
    ensures multiset(ConvertCurrencies(raw, o1)) == multiset(ConvertCurrencies(raw, o2))
  {
    KeyedOrderIndependent(raw, o1, o2, SkipNilEntry(NameCurrency), (c: Currency) => c.name);
  }

  /** As written, the loop panics exactly when some key holds a nil
      currency; when it returns, it returns the corrected result. */
  lemma CurrenciesAsWrittenPanics(raw: map<string, Option<Currency>>, order: seq<string>)
    requires IsEnumeration(order, raw)
    ensures ConvertCurrenciesAsWritten(raw, order).Panics? <==> exists k :: k in raw && raw[k].None?
    ensures ConvertCurrenciesAsWritten(raw, order).Returns? ==>
      ConvertCurrenciesAsWritten(raw, order).value == ConvertCurrencies(raw, order)
  {
    KeyedAsWritten(raw, order, NameCurrency);
  }

  /** A response `{"BTC": null}` makes the loop as written panic; the
      corrected loop returns no currency. */
  lemma NullCurrencyPanics()
    ensures ConvertCurrenciesAsWritten(map["BTC" := None], ["BTC"]) == Panics
    ensures ConvertCurrencies(map["BTC" := None], ["BTC"]) == []
  {
    var raw: map<string, Option<Currency>> := map["BTC" := None];
    CurrenciesAsWrittenPanics(raw, ["BTC"]);
    assert Entries(raw, ["BTC"])[..0] == [];
  }

  function CurrenciesRequest(): Request
  {
    PublicRequest("returnCurrencies", [])
  }

  /** `GetCurrencies`: a transport failure is returned unchanged;
      otherwise there is one currency per key holding a currency, which is
      that payload named after its key, and no two share a name. */
  function GetCurrencies(fetch: Request -> Result<map<string, Option<Currency>>, Error>, order: seq<string>)
    : (r: Result<seq<Currency>, Error>)
    requires fetch(CurrenciesRequest()).Success? ==> IsEnumeration(order, fetch(CurrenciesRequest()).value)
    ensures r.Failure? <==> fetch(CurrenciesRequest()).Failure?
    ensures r.Failure? ==> r.error == fetch(CurrenciesRequest()).error
    ensures r.Success? ==> var raw := fetch(CurrenciesRequest()).value;
      && (forall c :: c in r.value <==> c.name in raw && raw[c.name].Some? && c == raw[c.name].value.(name := c.name))
      && (forall k :: k in raw && raw[k].Some? ==> exists c :: c in r.value && c.name == k)
      && (forall i, j :: 0 <= i < j < |r.value| ==> r.value[i].name != r.value[j].name)
  {
    match fetch(CurrenciesRequest())
    case Failure(e) => Failure(e)
    case Success(raw) =>
      CurrenciesKeyed(raw, order);
      Success(ConvertCurrencies(raw, order))
  }
}

=== FILE: enumeration.dfy ===
/** Go's `for k, v := range m` visits the keys of a map in an order the
    language leaves unspecified. The model takes that order as a
    parameter and proves that what the client builds from a map does
    not depend on it beyond the order of the resulting slice. */
module Enumeration {
  import opened Wrappers
  import opened Filtering

  /** `order` visits every key of `m` exactly once. */
  predicate IsEnumeration<K, V>(order: seq<K>, m: map<K, V>)
  {
    && (forall i, j :: 0 <= i < j < |order| ==> order[i] != order[j])
    && (forall i :: 0 <= i < |order| ==> order[i] in m)
    && (forall k :: k in m ==> k in order)
  }

  /** The key/value pairs of `m` in the visiting order. */
  function Entries<K, V>(m: map<K, V>, order: seq<K>): (es: seq<(K, V)>)
    requires forall i :: 0 <= i < |order| ==> order[i] in m
    ensures |es| == |order|
    ensures forall i :: 0 <= i < |order| ==> es[i] == (order[i], m[order[i]])
  {
    seq(|order|, i requires 0 <= i < |order| => (order[i], m[order[i]]))
  }

  /** Whatever the visiting order, a record is produced exactly when the
      conversion succeeds on some entry of the map. */
  lemma KeyedMembers<K, V, B>(m: map<K, V>, order: seq<K>, f: ((K, V)) -> Option<B>)
    requires IsEnumeration(order, m)
    ensures forall b :: b in FilterMap(Entries(m, order), f) <==> exists k :: k in m && f((k, m[k])) == Some(b)
  {
    var es := Entries(m, order);
    FilterMapMembers(es, f);
    forall b, k | k in m && f((k, m[k])) == Some(b)
      ensures b in FilterMap(es, f)
    {
      var i :| 0 <= i < |order| && order[i] == k;
      assert f(es[i]) == Some(b);
    }
  }

  /** No two records of the output carry the same key, when every
      record carries the key of the entry it came from. */
  lemma KeyedDistinct<K, V, B>(m: map<K, V>, order: seq<K>, f: ((K, V)) -> Option<B>, key: B -> K)
    requires IsEnumeration(order, m)
    requires forall k :: k in m && f((k, m[k])).Some? ==> key(f((k, m[k])).value) == k
    ensures var r := FilterMap(Entries(m, order), f);
      forall i, j :: 0 <= i < j < |r| ==> key(r[i]) != key(r[j])
    ensures Distinct(FilterMap(Entries(m, order), f))
  {
    var es := Entries(m, order);
    var r, ix := FilterMap(es, f), KeptIndices(es, f);
    FilterMapIndexed(es, f);
    forall i, j | 0 <= i < j < |r|
      ensures key(r[i]) != key(r[j]) && r[i] != r[j]
    {
      assert f(es[ix[i]]) == Some(r[i]) && f(es[ix[j]]) == Some(r[j]);
      assert key(r[i]) == order[ix[i]] && key(r[j]) == order[ix[j]];
    }
  }

  ghost predicate Distinct<T>(s: seq<T>)
  {
    forall i, j :: 0 <= i < j < |s| ==> s[i] != s[j]
  }

  /** In a sequence without repeats every element occurs once. */
  lemma {:induction false} DistinctOccursOnce<T>(s: seq<T>, x: T)
    requires Distinct(s)
    ensures multiset(s)[x] == if x in s then 1 else 0
    decreases |s|
  {
    if |s| > 0 {
      var p := s[..|s| - 1];
      DistinctOccursOnce(p, x);
      assert s == p + [s[|s| - 1]];
      assert s[|s| - 1] !in p;
      assert x in s <==> x in p || x == s[|s| - 1];
    }
  }

  /** Two sequences without repeats and with the same elements are
      permutations of each other. */
  lemma SameElementsPermutation<T>(s1: seq<T>, s2: seq<T>)
    requires Distinct(s1) && Distinct(s2)
    requires forall x :: x in s1 <==> x in s2
    ensures multiset(s1) == multiset(s2)
  {
    forall x
      ensures multiset(s1)[x] == multiset(s2)[x]
    {
      DistinctOccursOnce(s1, x);
      DistinctOccursOnce(s2, x);
    }
  }

  /** Two visiting orders of the same map give permutations of the
      same records. */
  lemma KeyedOrderIndependent<K, V, B>(m: map<K, V>, o1: seq<K>, o2: seq<K>, f: ((K, V)) -> Option<B>, key: B -> K)
    requires IsEnumeration(o1, m) && IsEnumeration(o2, m)
    requires forall k :: k in m && f((k, m[k])).Some? ==> key(f((k, m[k])).value) == k
    ensures multiset(FilterMap(Entries(m, o1), f)) == multiset(FilterMap(Entries(m, o2), f))
  {
    KeyedMembers(m, o1, f);
    KeyedMembers(m, o2, f);
    KeyedDistinct(m, o1, f, key);
    KeyedDistinct(m, o2, f, key);
    SameElementsPermutation(FilterMap(Entries(m, o1), f), FilterMap(Entries(m, o2), f));
  }

  /** A per-entry conversion lifted to a map whose values are nil-able
      pointers: an entry holding nil is dropped. */
  function SkipNilEntry<K, R, B>(f: (K, R) -> Option<B>): ((K, Option<R>)) -> Option<B>
  {
    (e: (K, Option<R>)) => if e.1.None? then None else f(e.0, e.1.value)
  }

  /** The same conversion as the Go loops write it: the value of every
      entry is dereferenced, so a nil value panics. */
  function DerefEntry<K, R, B>(f: (K, R) -> Option<B>): ((K, Option<R>)) -> Step<B>
  {
    (e: (K, Option<R>)) =>
      if e.1.None? then Crash
      else if f(e.0, e.1.value).Some? then Keep(f(e.0, e.1.value).value)
      else Skip
  }

  /** Over a map of pointers, the loop as written panics exactly when
      some key holds nil, and otherwise agrees with the loop that drops
      nil entries. */
  lemma KeyedAsWritten<K(!new), R(!new), B>(m: map<K, Option<R>>, order: seq<K>, f: (K, R) -> Option<B>)
    requires IsEnumeration(order, m)
    ensures Run(Entries(m, order), DerefEntry(f)).Panics? <==> exists k :: k in m && m[k].None?
    ensures Run(Entries(m, order), DerefEntry(f)).Returns? ==>
      Run(Entries(m, order), DerefEntry(f)).value == FilterMap(Entries(m, order), SkipNilEntry(f))
  {
    var es := Entries(m, order);
    assert Recovers(DerefEntry(f), SkipNilEntry(f));
    RunRecovers(es, DerefEntry(f), SkipNilEntry(f));
    if exists k :: k in m && m[k].None? {
      var k :| k in m && m[k].None?;
      var i :| 0 <= i < |order| && order[i] == k;
      assert DerefEntry(f)(es[i]).Crash?;
    }
  }

  /** Membership for a map of pointers: a record is produced exactly when
      some key holds a record that converts to it. */
  lemma KeyedNilMembers<K, R, B>(m: map<K, Option<R>>, order: seq<K>, f: (K, R) -> Option<B>)
    requires IsEnumeration(order, m)
    ensures forall b :: b in FilterMap(Entries(m, order), SkipNilEntry(f)) <==>
      exists k :: k in m && m[k].Some? && f(k, m[k].value) == Some(b)
  {
    KeyedMembers(m, order, SkipNilEntry(f));
    assert forall k :: k in m ==> SkipNilEntry(f)((k, m[k])) == (if m[k].None? then None else f(k, m[k].value));
  }
}

=== FILE: filtering.dfy ===
/** Best-effort batch conversion: the loop shape every list- and
    map-shaped endpoint of the client shares. Each source element is
    converted on its own; an element whose conversion fails is skipped
    and the rest are kept, in order. */
module Filtering {
  import opened Wrappers

  /** What one iteration of a conversion loop does. */
  datatype Step<+B> = Keep(value: B) | Skip | Crash

  /** The singleton or empty sequence an optional value contributes. */
  function Emit<B>(o: Option<B>): seq<B>
  {
    if o.Some? then [o.value] else []
  }

  /** Runs `f` over `s` left to right, appending each success. */
  function FilterMap<A, B>(s: seq<A>, f: A -> Option<B>): (r: seq<B>)
    ensures |r| <= |s|
    decreases |s|
  {
    if |s| == 0 then []
    else FilterMap(s[..|s| - 1], f) + Emit(f(s[|s| - 1]))
  }

  /** The positions of `s` on which `f` succeeds, in increasing order. */
  function KeptIndices<A, B>(s: seq<A>, f: A -> Option<B>): seq<nat>
    decreases |s|
  {
    if |s| == 0 then []
    else KeptIndices(s[..|s| - 1], f) + (if f(s[|s| - 1]).Some? then [|s| - 1] else [])
  }

  /** `r` lists the successes of `f` on `s`, in source order, and
      `ix` says where each came from: `ix` is strictly increasing and
      holds exactly the positions on which `f` succeeds. */
  ghost predicate IndexedBy<A, B>(s: seq<A>, f: A -> Option<B>, r: seq<B>, ix: seq<nat>)
  {
    && |ix| == |r|
    && (forall j :: 0 <= j < |ix| ==> ix[j] < |s| && f(s[ix[j]]) == Some(r[j]))
    && (forall j, k :: 0 <= j < k < |ix| ==> ix[j] < ix[k])
    && (forall i :: 0 <= i < |s| ==> (f(s[i]).Some? <==> i in ix))
  }

  /** The output of a best-effort conversion is the order-preserving
      subsequence of the successes, and nothing else. */
  lemma {:induction false} FilterMapIndexed<A, B>(s: seq<A>, f: A -> Option<B>)
    ensures IndexedBy(s, f, FilterMap(s, f), KeptIndices(s, f))
    decreases |s|
  {
    if |s| > 0 {
      var p := s[..|s| - 1];
      var last := |s| - 1;
      FilterMapIndexed(p, f);
      var r, ix := FilterMap(s, f), KeptIndices(s, f);
      var rp, ixp := FilterMap(p, f), KeptIndices(p, f);
      assert r == rp + Emit(f(s[last]));
      assert ix == ixp + (if f(s[last]).Some? then [last] else []);
      forall j | 0 <= j < |ix|
        ensures ix[j] < |s| && f(s[ix[j]]) == Some(r[j])
      {
        if j < |ixp| {
          assert ix[j] == ixp[j] && r[j] == rp[j];
          assert s[ixp[j]] == p[ixp[j]];
        }
      }
      forall i | 0 <= i < |s|
        ensures f(s[i]).Some? <==> i in ix
      {
        if i < last {
          assert s[i] == p[i];
          assert i in ix <==> i in ixp;
        } else {
          assert forall j :: 0 <= j < |ixp| ==> ixp[j] < last;
        }
      }
    }
  }

  /** An element reaches the output exactly when some source element
      converts to it. */
  lemma FilterMapMembers<A, B>(s: seq<A>, f: A -> Option<B>)
    ensures forall b :: b in FilterMap(s, f) <==> exists i :: 0 <= i < |s| && f(s[i]) == Some(b)
  {
    var r, ix := FilterMap(s, f), KeptIndices(s, f);
    FilterMapIndexed(s, f);
    forall b | b in r
      ensures exists i :: 0 <= i < |s| && f(s[i]) == Some(b)
    {
      var j :| 0 <= j < |r| && r[j] == b;
      assert f(s[ix[j]]) == Some(b);
    }
    forall b, i | 0 <= i < |s| && f(s[i]) == Some(b)
      ensures b in r
    {
      assert i in ix;
      var j :| 0 <= j < |ix| && ix[j] == i;
      assert r[j] == b;
    }
  }

  /** Nothing is dropped exactly when every element converts. */
  lemma {:induction false} FilterMapKeepsAll<A, B>(s: seq<A>, f: A -> Option<B>)
    ensures |FilterMap(s, f)| == |s| <==> forall i :: 0 <= i < |s| ==> f(s[i]).Some?
    decreases |s|
  {
    if |s| > 0 {
      var p := s[..|s| - 1];
      FilterMapKeepsAll(p, f);
      assert forall i :: 0 <= i < |p| ==> p[i] == s[i];
    }
  }

  /** `enc` applied to every element. */
  function MapSeq<A, B>(xs: seq<B>, enc: B -> A): (ys: seq<A>)
    ensures |ys| == |xs|
    ensures forall i :: 0 <= i < |xs| ==> ys[i] == enc(xs[i])
  {
    seq(|xs|, i requires 0 <= i < |xs| => enc(xs[i]))
  }

  /** Converting encoded records gives the records back when the
      conversion inverts the encoding on each of them. */
  lemma {:induction false} FilterMapInverts<A, B>(xs: seq<B>, enc: B -> A, f: A -> Option<B>)
    requires forall i :: 0 <= i < |xs| ==> f(enc(xs[i])) == Some(xs[i])
    ensures FilterMap(MapSeq(xs, enc), f) == xs
    decreases |xs|
  {
    if |xs| > 0 {
      var p := xs[..|xs| - 1];
      assert MapSeq(xs, enc)[..|xs| - 1] == MapSeq(p, enc);
      FilterMapInverts(p, enc, f);
      assert xs == p + [xs[|xs| - 1]];
    }
  }

  /** The Go loop as written, for loops that dereference a pointer per
      element: a `Crash` step stops the whole loop with a panic. */
  function Run<A, B>(s: seq<A>, step: A -> Step<B>): Exec<seq<B>>
    decreases |s|
  {
    if |s| == 0 then Returns([])
    else
      match Run(s[..|s| - 1], step)
      case Panics => Panics
      case Returns(acc) =>
        match step(s[|s| - 1])
        case Crash => Panics
        case Skip => Returns(acc)
        case Keep(b) => Returns(acc + [b])
  }

  /** `f` is `step` with every crash turned into a skip. */
  ghost predicate Recovers<A(!new), B>(step: A -> Step<B>, f: A -> Option<B>)
  {
    forall a :: (step(a).Keep? ==> f(a) == Some(step(a).value)) && (step(a).Skip? ==> f(a).None?)
  }

  /** A loop with crashing steps panics exactly when some element
      crashes; otherwise it computes the best-effort conversion that
      skips instead of crashing. */
  lemma {:induction false} RunRecovers<A(!new), B>(s: seq<A>, step: A -> Step<B>, f: A -> Option<B>)
    requires Recovers(step, f)
    ensures Run(s, step).Panics? <==> exists i :: 0 <= i < |s| && step(s[i]).Crash?
    ensures Run(s, step).Returns? ==> Run(s, step).value == FilterMap(s, f)
    decreases |s|
  {
    if |s| > 0 {
      var p := s[..|s| - 1];
      RunRecovers(p, step, f);
      assert forall i :: 0 <= i < |p| ==> p[i] == s[i];
      if Run(s, step).Panics? && !step(s[|s| - 1]).Crash? {
        assert Run(p, step).Panics?;
        var i :| 0 <= i < |p| && step(p[i]).Crash?;
        assert step(s[i]).Crash?;
      }
    }
  }

  /** A per-record conversion lifted to a nil-able pointer: a nil
      record is dropped like a malformed one. */
  function SkipNil<R, B>(f: R -> Option<B>): Option<R> -> Option<B>
  {
    (o: Option<R>) => if o.None? then None else f(o.value)
  }

  /** The same conversion as Go writes it: dereferencing a nil record
      panics. */
  function Deref<R, B>(f: R -> Option<B>): Option<R> -> Step<B>
  {
    (o: Option<R>) => if o.None? then Crash else if f(o.value).Some? then Keep(f(o.value).value) else Skip
  }

  lemma DerefRecovers<R(!new), B>(f: R -> Option<B>)
    ensures Recovers(Deref(f), SkipNil(f))
  {
  }
}

=== FILE: json.dfy ===
/** Decoded JSON values, and the two pieces of Go library behaviour the
    normalisation layer leans on: `strconv.ParseFloat` and the `%v`
    verb of `fmt.Sprintf`. */
module Json {
  import opened Wrappers

  /** A JSON value as `encoding/json` decodes it into an `interface{}`:
      numbers arrive as float64, which the model writes as `real`. */
  datatype JValue =
    | JNull
    | JBool(b: bool)
    | JNum(n: real)
    | JStr(s: string)
    | JArr(items: seq<JValue>)
    | JObj(fields: map<string, JValue>)

  /** The library functions the client calls but the model does not
      open up. `parseFloat` is `strconv.ParseFloat(_, 64)`: `None` is its
      error. `formatValue` is the text `%v` prints for a number, an array
      or an object (Go's shortest float formatting and its `map[...]`
      notation). Both are arbitrary total functions: every property of
      the model holds for all of them. */
  datatype Fmt = Fmt(parseFloat: string -> Option<real>, formatValue: JValue -> string)

  /** `fmt.Sprintf("%v", v)` for a decoded JSON value. A string prints as
      itself, a boolean as `true`/`false`, a nil interface as `<nil>`. */
  function Text(fm: Fmt, v: JValue): string
  {
    match v
    case JStr(s) => s
    case JBool(b) => if b then "true" else "false"
    case JNull => "<nil>"
    case _ => fm.formatValue(v)
  }
}

=== FILE: loans.dfy ===
/** `GetLoanOrders`: offers and demands, each converted on its own. */
module Loans {
  import opened Wrappers
  import opened Json
  import opened Poloniex
  import opened Filtering
  import opened Requests

  /** `loanFromJSON`: rate and amount arrive as strings. */
  datatype LoanRaw = LoanRaw(rate: string, amount: string, rangeMin: Int64, rangeMax: Int64)

  /** `loanOrdersFromJSON`. */
  datatype LoanOrdersRaw = LoanOrdersRaw(offers: seq<Option<LoanRaw>>, demands: seq<Option<LoanRaw>>)

  /** One loan: rate then amount are parsed; the first failure drops it. */
  function ParseLoan(fm: Fmt, l: LoanRaw): Option<Loan>
  {
    match fm.parseFloat(l.rate)
    case None => None
    case Some(rate) =>
      match fm.parseFloat(l.amount)
      case None => None
      case Some(amount) => Some(Loan(rate, amount, l.rangeMin, l.rangeMax))
  }

  function LoanParser(fm: Fmt): LoanRaw -> Option<Loan>
  {
    l => ParseLoan(fm, l)
  }

  /** One of the two loops of `GetLoanOrders`; a nil loan is skipped. */
  function ConvertLoans(fm: Fmt, raw: seq<Option<LoanRaw>>): seq<Loan>
  {
    FilterMap(raw, SkipNil(LoanParser(fm)))
  }

  /** The conversion of `GetLoanOrders`: offers from offers, demands from
      demands. */
  function ConvertLoanOrders(fm: Fmt, raw: LoanOrdersRaw): (r: LoanOrders)
    ensures |r.offers| <= |raw.offers| && |r.demands| <= |raw.demands|
  {
    LoanOrders(ConvertLoans(fm, raw.offers), ConvertLoans(fm, raw.demands))
  }

  /** The same conversion as written: a nil loan is dereferenced. */
  function ConvertLoanOrdersAsWritten(fm: Fmt, raw: LoanOrdersRaw): Exec<LoanOrders>
  {
    match Run(raw.offers, Deref(LoanParser(fm)))
    case Panics => Panics
    case Returns(offers) =>
      match Run(raw.demands, Deref(LoanParser(fm)))
      case Panics => Panics
      case Returns(demands) => Returns(LoanOrders(offers, demands))
  }

  /** Rate and amount of a loan both parse. */
  ghost predicate Parses(fm: Fmt, l: LoanRaw)
  {
    fm.parseFloat(l.rate).Some? && fm.parseFloat(l.amount).Some?
  }

  /** `x` is loan `l` with its numbers parsed and its range copied. */
  ghost predicate LoanFrom(fm: Fmt, l: LoanRaw, x: Loan)
  {
    && fm.parseFloat(l.rate) == Some(x.rate)
    && fm.parseFloat(l.amount) == Some(x.amount)
    && x.rangeMin == l.rangeMin
    && x.rangeMax == l.rangeMax
  }

  lemma ParseLoanSpec(fm: Fmt, o: Option<LoanRaw>)
    ensures SkipNil(LoanParser(fm))(o).Some? <==> o.Some? && Parses(fm, o.value)
    ensures SkipNil(LoanParser(fm))(o).Some? ==> LoanFrom(fm, o.value, SkipNil(LoanParser(fm))(o).value)
  {
  }

  /** A converted side is the order-preserving subsequence of the loans
      of that side whose rate and amount both parse; position `j` of the
      output is loan `ix[j]` of the input with its range copied. */
  lemma LoansKept(fm: Fmt, raw: seq<Option<LoanRaw>>)
    ensures var r, ix := ConvertLoans(fm, raw), KeptIndices(raw, SkipNil(LoanParser(fm)));
      && |ix| == |r|
      && (forall j :: 0 <= j < |r| ==>
            ix[j] < |raw| && raw[ix[j]].Some? && LoanFrom(fm, raw[ix[j]].value, r[j]))
      && (forall j, k :: 0 <= j < k < |r| ==> ix[j] < ix[k])
      && (forall i :: 0 <= i < |raw| ==> (i in ix <==> raw[i].Some? && Parses(fm, raw[i].value)))
  {
    var f := SkipNil(LoanParser(fm));
    FilterMapIndexed(raw, f);
    forall o: Option<LoanRaw> | true
      ensures f(o).Some? <==> o.Some? && Parses(fm, o.value)
      ensures f(o).Some? ==> LoanFrom(fm, o.value, f(o).value)
    {
      ParseLoanSpec(fm, o);
    }
  }

  /** Offers never feed demands nor demands offers: every converted offer
      is the conversion of some offer and every converted demand that of
      some demand. */
  lemma LoanSidesSeparate(fm: Fmt, raw: LoanOrdersRaw)
    ensures var r := ConvertLoanOrders(fm, raw);
      && (forall x :: x in r.offers ==>
            exists i :: 0 <= i < |raw.offers| && raw.offers[i].Some? && LoanFrom(fm, raw.offers[i].value, x))
      && (forall x :: x in r.demands ==>
            exists i :: 0 <= i < |raw.demands| && raw.demands[i].Some? && LoanFrom(fm, raw.demands[i].value, x))
  {
    var r := ConvertLoanOrders(fm, raw);
    LoansKept(fm, raw.offers);
    LoansKept(fm, raw.demands);
    var ixo := KeptIndices(raw.offers, SkipNil(LoanParser(fm)));
    var ixd := KeptIndices(raw.demands, SkipNil(LoanParser(fm)));
    forall x | x in r.offers
      ensures exists i :: 0 <= i < |raw.offers| && raw.offers[i].Some? && LoanFrom(fm, raw.offers[i].value, x)
    {
      var j :| 0 <= j < |r.offers| && r.offers[j] == x;
      assert LoanFrom(fm, raw.offers[ixo[j]].value, x);
    }
    forall x | x in r.demands
      ensures exists i :: 0 <= i < |raw.demands| && raw.demands[i].Some? && LoanFrom(fm, raw.demands[i].value, x)
    {
      var j :| 0 <= j < |r.demands| && r.demands[j] == x;
      assert LoanFrom(fm, raw.demands[ixd[j]].value, x);
    }
  }

  /** Every converted loan is some received loan with its numbers parsed,
      and every received loan whose numbers parse is converted. */
  lemma LoansMembers(fm: Fmt, raw: seq<Option<LoanRaw>>)
    ensures var r := ConvertLoans(fm, raw);
      && (forall x :: x in r ==> exists i :: 0 <= i < |raw| && raw[i].Some? && LoanFrom(fm, raw[i].value, x))
      && (forall i :: 0 <= i < |raw| && raw[i].Some? && Parses(fm, raw[i].value) ==>
            exists x :: x in r && LoanFrom(fm, raw[i].value, x))
  {
    var r, ix := ConvertLoans(fm, raw), KeptIndices(raw, SkipNil(LoanParser(fm)));
    LoansKept(fm, raw);
    forall x | x in r
      ensures exists i :: 0 <= i < |raw| && raw[i].Some? && LoanFrom(fm, raw[i].value, x)
    {
      var j :| 0 <= j < |r| && r[j] == x;
      assert LoanFrom(fm, raw[ix[j]].value, x);
    }
    forall i | 0 <= i < |raw| && raw[i].Some? && Parses(fm, raw[i].value)
      ensures exists x :: x in r && LoanFrom(fm, raw[i].value, x)
    {
      assert i in ix;
      var j :| 0 <= j < |ix| && ix[j] == i;
      assert r[j] in r;
    }
  }

  /** The wire form of a loan, its numbers rendered as text. */
  function EncodeLoan(render: real -> string): Loan -> Option<LoanRaw>
  {
    (x: Loan) => Some(LoanRaw(render(x.rate), render(x.amount), x.rangeMin, x.rangeMax))
  }

  /** Converting the wire form of loan orders gives them back, when the
      parser reads back every rendered number. */
  lemma LoanOrdersRoundTrip(fm: Fmt, render: real -> string, lo: LoanOrders)
    requires forall x :: x in lo.offers + lo.demands ==>
      fm.parseFloat(render(x.rate)) == Some(x.rate) && fm.parseFloat(render(x.amount)) == Some(x.amount)
    ensures ConvertLoanOrders(fm, LoanOrdersRaw(MapSeq(lo.offers, EncodeLoan(render)), MapSeq(lo.demands, EncodeLoan(render))))
      == lo
  {
    assert forall i :: 0 <= i < |lo.offers| ==> lo.offers[i] in lo.offers + lo.demands;
    assert forall i :: 0 <= i < |lo.demands| ==> lo.demands[i] in lo.offers + lo.demands;
    FilterMapInverts(lo.offers, EncodeLoan(render), SkipNil(LoanParser(fm)));
    FilterMapInverts(lo.demands, EncodeLoan(render), SkipNil(LoanParser(fm)));
  }

  /** As written, the conversion panics exactly when some offer or some
      demand is nil; when it returns, it returns the corrected result. */
  lemma LoanOrdersAsWrittenPanics(fm: Fmt, raw: LoanOrdersRaw)
    ensures ConvertLoanOrdersAsWritten(fm, raw).Panics? <==>
      (exists i :: 0 <= i < |raw.offers| && raw.offers[i].None?) ||
      (exists i :: 0 <= i < |raw.demands| && raw.demands[i].None?)
    ensures ConvertLoanOrdersAsWritten(fm, raw).Returns? ==>
      ConvertLoanOrdersAsWritten(fm, raw).value == ConvertLoanOrders(fm, raw)
  {
    DerefRecovers(LoanParser(fm));
    RunRecovers(raw.offers, Deref(LoanParser(fm)), SkipNil(LoanParser(fm)));
    RunRecovers(raw.demands, Deref(LoanParser(fm)), SkipNil(LoanParser(fm)));
  }

  /** A response whose offers are `[null]` makes the conversion as
      written panic; the corrected conversion returns no offer. */
  lemma NullLoanPanics(fm: Fmt)
    ensures ConvertLoanOrdersAsWritten(fm, LoanOrdersRaw([None], [])) == Panics
    ensures ConvertLoanOrders(fm, LoanOrdersRaw([None], [])) == LoanOrders([], [])
  {
    var raw := LoanOrdersRaw([None], []);
    LoanOrdersAsWrittenPanics(fm, raw);
    assert raw.offers[..0] == [];
  }

  function LoanOrdersRequest(currency: string): Request
  {
    PublicRequest("returnLoanOrders", [Param("currency", currency)])
  }

  /** The loan-orders query names the command and the currency only. */
  lemma LoanOrdersQuery(currency: string)
    ensures LoanOrdersRequest(currency).query == map["command" := "returnLoanOrders", "currency" := currency]
  {
    var params := [Param("currency", currency)];
    var base := map["command" := "returnLoanOrders"];
    assert params[..0] == [];
    assert Assemble(base, params) == base["currency" := currency];
  }

  /** `GetLoanOrders`: a transport failure is returned unchanged;
      otherwise each side holds exactly the conversions of the received
      loans of that side whose numbers parse. */
  function GetLoanOrders(fm: Fmt, fetch: Request -> Result<LoanOrdersRaw, Error>, currency: string)
    : (r: Result<LoanOrders, Error>)
    ensures r.Failure? <==> fetch(LoanOrdersRequest(currency)).Failure?
    ensures r.Failure? ==> r.error == fetch(LoanOrdersRequest(currency)).error
    ensures r.Success? ==>
      && |r.value.offers| <= |fetch(LoanOrdersRequest(currency)).value.offers|
      && |r.value.demands| <= |fetch(LoanOrdersRequest(currency)).value.demands|
    ensures r.Success? ==> var raw := fetch(LoanOrdersRequest(currency)).value;
      && (forall x :: x in r.value.offers ==>
            exists i :: 0 <= i < |raw.offers| && raw.offers[i].Some? && LoanFrom(fm, raw.offers[i].value, x))
      && (forall i :: 0 <= i < |raw.offers| && raw.offers[i].Some? && Parses(fm, raw.offers[i].value) ==>
            exists x :: x in r.value.offers && LoanFrom(fm, raw.offers[i].value, x))
      && (forall x :: x in r.value.demands ==>
            exists i :: 0 <= i < |raw.demands| && raw.demands[i].Some? && LoanFrom(fm, raw.demands[i].value, x))
      && (forall i :: 0 <= i < |raw.demands| && raw.demands[i].Some? && Parses(fm, raw.demands[i].value) ==>
            exists x :: x in r.value.demands && LoanFrom(fm, raw.demands[i].value, x))
  {
    match fetch(LoanOrdersRequest(currency))
    case Failure(e) => Failure(e)
    case Success(raw) =>
      LoansMembers(fm, raw.offers);
      LoansMembers(fm, raw.demands);
      Success(ConvertLoanOrders(fm, raw))
  }
}

=== FILE: orderbooks.dfy ===
/** `GetOrderBook`, `GetAllOrderBooks` and their shared conversion
    `convertOrderBook`. */
module OrderBooks {
  import opened Wrappers
  import opened Json
  import opened Poloniex
  import opened Filtering
  import opened Enumeration
  import opened Requests

  /** `orderBookFromJSON`: each ask and bid is an untyped JSON array. */
  datatype OrderBookRaw = OrderBookRaw(
    asks: seq<seq<JValue>>,
    bids: seq<seq<JValue>>,
    isFrozen: string,
    seqNumber: Int64)

  /** One ask or bid entry: the price is whatever parses from the text
      of the first element, the amount must already be a JSON number. */
  function ParseOrder(fm: Fmt, e: seq<JValue>): (r: Option<Order>)
    ensures r.Some? <==> WellFormedEntry(fm, e)
    ensures r.Some? ==> fm.parseFloat(Text(fm, e[0])) == Some(r.value.value) && r.value.amount == e[1].n
  {
    if |e| < 2 then None
    else
      match fm.parseFloat(Text(fm, e[0]))
      case None => None
      case Some(value) => if e[1].JNum? then Some(Order(value, e[1].n)) else None
  }

  function OrderParser(fm: Fmt): seq<JValue> -> Option<Order>
  {
    e => ParseOrder(fm, e)
  }

  /** One side of the book: the well-formed entries, converted, in order. */
  function ConvertSide(fm: Fmt, side: seq<seq<JValue>>): seq<Order>
  {
    FilterMap(side, OrderParser(fm))
  }

  /** The three conditions under which an entry survives. */
  ghost predicate WellFormedEntry(fm: Fmt, e: seq<JValue>)
  {
    |e| >= 2 && fm.parseFloat(Text(fm, e[0])).Some? && e[1].JNum?
  }

  /** `r` is the converted side `side`, its entries drawn from the
      positions `ix`: increasing positions, exactly those of the
      well-formed entries, each parsed into its order. */
  ghost predicate SideIndexed(fm: Fmt, side: seq<seq<JValue>>, r: seq<Order>, ix: seq<nat>)
  {
    && |ix| == |r|
    && (forall j :: 0 <= j < |r| ==>
          && ix[j] < |side|
          && WellFormedEntry(fm, side[ix[j]])
          && r[j] == Order(fm.parseFloat(Text(fm, side[ix[j]][0])).value, side[ix[j]][1].n))
    && (forall j, k :: 0 <= j < k < |r| ==> ix[j] < ix[k])
    && (forall i :: 0 <= i < |side| ==> (i in ix <==> WellFormedEntry(fm, side[i])))
  }

  /** `r` holds the well-formed entries of `side`, parsed, in their order. */
  ghost predicate KeptSide(fm: Fmt, side: seq<seq<JValue>>, r: seq<Order>)
  {
    exists ix: seq<nat> :: SideIndexed(fm, side, r, ix)
  }

  /** `convertOrderBook`: the frozen flag and sequence number pass through,
      the pair is left empty, and each side keeps only its well-formed
      entries, parsed, in their order. */
  function ConvertOrderBook(fm: Fmt, o: OrderBookRaw): (b: OrderBook)
    ensures b.pair == ""
    ensures b.isFrozen == o.isFrozen && b.seqNumber == o.seqNumber
    ensures |b.asks| <= |o.asks| && |b.bids| <= |o.bids|
    ensures KeptSide(fm, o.asks, b.asks) && KeptSide(fm, o.bids, b.bids)
  {
    ConvertSideKept(fm, o.asks);
    ConvertSideKept(fm, o.bids);
    assert SideIndexed(fm, o.asks, ConvertSide(fm, o.asks), KeptIndices(o.asks, OrderParser(fm)));
    assert SideIndexed(fm, o.bids, ConvertSide(fm, o.bids), KeptIndices(o.bids, OrderParser(fm)));
    OrderBook("", ConvertSide(fm, o.asks), ConvertSide(fm, o.bids), o.isFrozen, o.seqNumber)
  }

  /** A side of the converted book is the order-preserving subsequence of
      the well-formed entries: position `j` of the output comes from
      position `ix[j]` of the input, the positions increase, and an entry
      is kept if and only if it has two elements, its price text parses
      and its amount is a JSON number. */
  lemma ConvertSideKept(fm: Fmt, side: seq<seq<JValue>>)
    ensures var r, ix := ConvertSide(fm, side), KeptIndices(side, OrderParser(fm));
      && |ix| == |r|
      && (forall j :: 0 <= j < |r| ==>
            && ix[j] < |side|
            && WellFormedEntry(fm, side[ix[j]])
            && r[j] == Order(fm.parseFloat(Text(fm, side[ix[j]][0])).value, side[ix[j]][1].n))
      && (forall j, k :: 0 <= j < k < |r| ==> ix[j] < ix[k])
      && (forall i :: 0 <= i < |side| ==> (i in ix <==> WellFormedEntry(fm, side[i])))
  {
    var r, ix := ConvertSide(fm, side), KeptIndices(side, OrderParser(fm));
    FilterMapIndexed(side, OrderParser(fm));
    forall j | 0 <= j < |r|
      ensures && ix[j] < |side|
              && WellFormedEntry(fm, side[ix[j]])
              && r[j] == Order(fm.parseFloat(Text(fm, side[ix[j]][0])).value, side[ix[j]][1].n)
    {
      ParseOrderSpec(fm, side[ix[j]]);
    }
    forall i | 0 <= i < |side|
      ensures i in ix <==> WellFormedEntry(fm, side[i])
    {
      ParseOrderSpec(fm, side[i]);
    }
  }

  lemma ParseOrderSpec(fm: Fmt, e: seq<JValue>)
    ensures OrderParser(fm)(e).Some? <==> WellFormedEntry(fm, e)
    ensures WellFormedEntry(fm, e) ==>
      OrderParser(fm)(e) == Some(Order(fm.parseFloat(Text(fm, e[0])).value, e[1].n))
  {
  }

  /** Whether an entry's price is a string or a number, a string amount
      drops the entry, however numeric it looks. */
  lemma StringAmountDropped(fm: Fmt, price: JValue, amount: string)
    ensures ConvertSide(fm, [[price, JStr(amount)]]) == []
  {
    assert [[price, JStr(amount)]][..0] == [];
  }

  /** The wire form of an order: the price as text, the amount as a number. */
  function EncodeOrder(render: real -> string): Order -> seq<JValue>
  {
    (o: Order) => [JStr(render(o.value)), JNum(o.amount)]
  }

  /** Converting the wire form of a side gives the side back, when the
      number parser reads back each price as rendered. */
  lemma ConvertSideRoundTrip(fm: Fmt, render: real -> string, orders: seq<Order>)
    requires forall i :: 0 <= i < |orders| ==> fm.parseFloat(render(orders[i].value)) == Some(orders[i].value)
    ensures ConvertSide(fm, MapSeq(orders, EncodeOrder(render))) == orders
  {
    FilterMapInverts(orders, EncodeOrder(render), OrderParser(fm));
  }

  /** Asks `[["102.5", 3.0], ["bad", 1.0], [99.0]]` convert to the single
      order (102.5, 3.0). */
  lemma ConvertSideExample(fm: Fmt)
    requires fm.parseFloat("102.5") == Some(102.5)
    requires fm.parseFloat("bad") == None
    ensures ConvertSide(fm, [[JStr("102.5"), JNum(3.0)], [JStr("bad"), JNum(1.0)], [JNum(99.0)]])
      == [Order(102.5, 3.0)]
  {
    var side := [[JStr("102.5"), JNum(3.0)], [JStr("bad"), JNum(1.0)], [JNum(99.0)]];
    var f := OrderParser(fm);
    assert f(side[0]) == Some(Order(102.5, 3.0));
    assert f(side[1]) == None;
    assert f(side[2]) == None;
    assert side[..2][..1][..0] == [];
    assert side[..2][..1] == [side[0]];
    assert side[..2] == [side[0], side[1]];
    assert FilterMap(side[..1], f) == [Order(102.5, 3.0)];
    assert FilterMap(side[..2], f) == [Order(102.5, 3.0)];
  }

  function OrderBookRequest(pair: string, depth: Uint64): Request
  {
    PublicRequest("returnOrderBook", [Param("currencyPair", pair), Param("depth", Decimal(depth as nat))])
  }

  /** The single-book query carries the command, the pair and the depth,
      and nothing else. */
  lemma OrderBookQuery(pair: string, depth: Uint64)
    ensures OrderBookRequest(pair, depth).query
      == map["command" := "returnOrderBook", "currencyPair" := pair, "depth" := Decimal(depth as nat)]
  {
    var params := [Param("currencyPair", pair), Param("depth", Decimal(depth as nat))];
    var base := map["command" := "returnOrderBook"];
    assert params[..1][..0] == [] && params[..1] == [params[0]];
    assert Assemble(base, params[..1]) == base["currencyPair" := pair];
    assert Assemble(base, params) == base["currencyPair" := pair]["depth" := Decimal(depth as nat)];
  }

  /** `GetOrderBook`: the pair `"all"` is refused before any request is
      made; otherwise the fetched book is converted and labelled with the
      requested pair, each side holding the well-formed entries of the
      fetched side, parsed, in their order. */
  function GetOrderBook(fm: Fmt, fetch: Request -> Result<OrderBookRaw, Error>, pair: string, depth: Uint64)
    : (r: Result<OrderBook, Error>)
    ensures pair == "all" ==> r == Failure(UseGetAllOrderBooks)
    ensures pair != "all" && fetch(OrderBookRequest(pair, depth)).Failure? ==>
      r == Failure(fetch(OrderBookRequest(pair, depth)).error)
    ensures pair != "all" && fetch(OrderBookRequest(pair, depth)).Success? ==>
      && r.Success?
      && r.value.pair == pair
      && r.value.isFrozen == fetch(OrderBookRequest(pair, depth)).value.isFrozen
      && r.value.seqNumber == fetch(OrderBookRequest(pair, depth)).value.seqNumber
      && KeptSide(fm, fetch(OrderBookRequest(pair, depth)).value.asks, r.value.asks)
      && KeptSide(fm, fetch(OrderBookRequest(pair, depth)).value.bids, r.value.bids)
  {
    if pair == "all" then Failure(UseGetAllOrderBooks)
    else
      match fetch(OrderBookRequest(pair, depth))
      case Failure(e) => Failure(e)
      case Success(o) => Success(ConvertOrderBook(fm, o).(pair := pair))
  }

  /** A book of the all-books response, labelled with its map key. */
  function LabelBook(fm: Fmt): (string, OrderBookRaw) -> Option<OrderBook>
  {
    (k, o) => Some(ConvertOrderBook(fm, o).(pair := k))
  }

  /** The loop of `GetAllOrderBooks`, visiting the keys in `order`; a key
      holding a nil book is skipped. */
  function ConvertAllOrderBooks(fm: Fmt, raw: map<string, Option<OrderBookRaw>>, order: seq<string>): seq<OrderBook>
    requires IsEnumeration(order, raw)
  {
    FilterMap(Entries(raw, order), SkipNilEntry(LabelBook(fm)))
  }

  /** The same loop as written: a nil book is dereferenced. */
  function ConvertAllOrderBooksAsWritten(fm: Fmt, raw: map<string, Option<OrderBookRaw>>, order: seq<string>)
    : Exec<seq<OrderBook>>
    requires IsEnumeration(order, raw)
  {
    Run(Entries(raw, order), DerefEntry(LabelBook(fm)))
  }

  /** The all-books result holds one book per key whose book is present,
      labelled with that key and otherwise converted as a single book;
      no two books share a pair. */
  lemma AllOrderBooksKeyed(fm: Fmt, raw: map<string, Option<OrderBookRaw>>, order: seq<string>)
    requires IsEnumeration(order, raw)
    ensures var r := ConvertAllOrderBooks(fm, raw, order);
      && (forall b :: b in r <==>
            b.pair in raw && raw[b.pair].Some? && b == ConvertOrderBook(fm, raw[b.pair].value).(pair := b.pair))
      && (forall k :: k in raw && raw[k].Some? ==> exists b :: b in r && b.pair == k)
      && (forall i, j :: 0 <= i < j < |r| ==> r[i].pair != r[j].pair)
  {
    var r := ConvertAllOrderBooks(fm, raw, order);
    AllOrderBooksMembers(fm, raw, order);
    forall k | k in raw && raw[k].Some?
      ensures exists b :: b in r && b.pair == k
    {
      var b := ConvertOrderBook(fm, raw[k].value).(pair := k);
      assert b in r;
    }
    AllOrderBooksDistinct(fm, raw, order);
  }

  lemma AllOrderBooksMembers(fm: Fmt, raw: map<string, Option<OrderBookRaw>>, order: seq<string>)
    requires IsEnumeration(order, raw)
    ensures forall b :: b in ConvertAllOrderBooks(fm, raw, order) <==>
      b.pair in raw && raw[b.pair].Some? && b == ConvertOrderBook(fm, raw[b.pair].value).(pair := b.pair)
  {
    KeyedNilMembers(raw, order, LabelBook(fm));
  }

  lemma AllOrderBooksDistinct(fm: Fmt, raw: map<string, Option<OrderBookRaw>>, order: seq<string>)
    requires IsEnumeration(order, raw)
    ensures var r := ConvertAllOrderBooks(fm, raw, order);
      forall i, j :: 0 <= i < j < |r| ==> r[i].pair != r[j].pair
  {
    var f := SkipNilEntry(LabelBook(fm));
    var key := (b: OrderBook) => b.pair;
    forall k | k in raw && f((k, raw[k])).Some?
      ensures key(f((k, raw[k])).value) == k
    {
      assert f((k, raw[k])).value == ConvertOrderBook(fm, raw[k].value).(pair := k);
    }
    KeyedDistinct(raw, order, f, key);
    var r := ConvertAllOrderBooks(fm, raw, order);
    assert r == FilterMap(Entries(raw, order), f);
    forall i, j | 0 <= i < j < |r|
      ensures r[i].pair != r[j].pair
    {
      assert key(r[i]) != key(r[j]);
    }
  }

  /** The visiting order changes only the order of the books. */
  lemma AllOrderBooksOrderIndependent(fm: Fmt, raw: map<string, Option<OrderBookRaw>>, o1: seq<string>, o2: seq<string>)
    requires IsEnumeration(o1, raw) && IsEnumeration(o2, raw)
    ensures multiset(ConvertAllOrderBooks(fm, raw, o1)) == multiset(ConvertAllOrderBooks(fm, raw, o2))
  {
    KeyedOrderIndependent(raw, o1, o2, SkipNilEntry(LabelBook(fm)), (b: OrderBook) => b.pair);
  }

  /** As written, the loop panics exactly when some key maps to a nil
      book; when it returns, it returns the corrected result. */
  lemma AllOrderBooksAsWrittenPanics(fm: Fmt, raw: map<string, Option<OrderBookRaw>>, order: seq<string>)
    requires IsEnumeration(order, raw)
    ensures ConvertAllOrderBooksAsWritten(fm, raw, order).Panics? <==> exists k :: k in raw && raw[k].None?
    ensures ConvertAllOrderBooksAsWritten(fm, raw, order).Returns? ==>
      ConvertAllOrderBooksAsWritten(fm, raw, order).value == ConvertAllOrderBooks(fm, raw, order)
  {
    KeyedAsWritten(raw, order, LabelBook(fm));
  }

  /** A response `{"BTC_ETH": null}` makes the loop as written panic; the
      corrected loop returns no book. */
  lemma NullBookPanics(fm: Fmt)
    ensures ConvertAllOrderBooksAsWritten(fm, map["BTC_ETH" := None], ["BTC_ETH"]) == Panics
    ensures ConvertAllOrderBooks(fm, map["BTC_ETH" := None], ["BTC_ETH"]) == []
  {
    var raw: map<string, Option<OrderBookRaw>> := map["BTC_ETH" := None];
    AllOrderBooksAsWrittenPanics(fm, raw, ["BTC_ETH"]);
    assert Entries(raw, ["BTC_ETH"])[..0] == [];
  }

  function AllOrderBooksRequest(depth: Uint64): Request
  {
    PublicRequest("returnOrderBook", [Param("currencyPair", "all"), Param("depth", Decimal(depth as nat))])
  }

  /** The all-books query is the single-book query for the one pair
      `GetOrderBook` refuses. */
  lemma AllOrderBooksQuery(depth: Uint64)
    ensures AllOrderBooksRequest(depth) == OrderBookRequest("all", depth)
    ensures AllOrderBooksRequest(depth).query
      == map["command" := "returnOrderBook", "currencyPair" := "all", "depth" := Decimal(depth as nat)]
  {
    OrderBookQuery("all", depth);
  }

  /** `GetAllOrderBooks`: a transport failure is returned unchanged;
      otherwise there is one book per key holding a book, converted as a
      single book and labelled with its key, and no two share a pair. */
  function GetAllOrderBooks(fm: Fmt, fetch: Request -> Result<map<string, Option<OrderBookRaw>>, Error>,
                            depth: Uint64, order: seq<string>): (r: Result<seq<OrderBook>, Error>)
    requires fetch(AllOrderBooksRequest(depth)).Success? ==>
      IsEnumeration(order, fetch(AllOrderBooksRequest(depth)).value)
    ensures r.Failure? <==> fetch(AllOrderBooksRequest(depth)).Failure?
    ensures r.Failure? ==> r.error == fetch(AllOrderBooksRequest(depth)).error
    ensures r.Success? ==> var raw := fetch(AllOrderBooksRequest(depth)).value;
      && (forall b :: b in r.value <==>
            b.pair in raw && raw[b.pair].Some? && b == ConvertOrderBook(fm, raw[b.pair].value).(pair := b.pair))
      && (forall k :: k in raw && raw[k].Some? ==> exists b :: b in r.value && b.pair == k)
      && (forall i, j :: 0 <= i < j < |r.value| ==> r.value[i].pair != r.value[j].pair)
  {
    match fetch(AllOrderBooksRequest(depth))
    case Failure(e) => Failure(e)
    case Success(raw) =>
      AllOrderBooksKeyed(fm, raw, order);
      Success(ConvertAllOrderBooks(fm, raw, order))
  }
}

=== FILE: poloniex.dfy ===
/** The public record types of the client library, the errors it
    returns and the client value itself. */
module Poloniex {

  /** Go's `int64` (also Go's `int`, 64 bits wide on the targets the
      library runs on). */
  newtype Int64 = x: int | -0x8000_0000_0000_0000 <= x < 0x8000_0000_0000_0000

  /** Go's `uint64` (and `uint`). */
  newtype Uint64 = x: int | 0 <= x < 0x1_0000_0000_0000_0000

  const BaseUrl: string := "https://poloniex.com"
  const TradeApi: string := BaseUrl + "/tradingApi"
  const PublicApi: string := BaseUrl + "/public"

  /** Market ticker; `currency` is the map key it was received under. */
  datatype Ticker = Ticker(
    currency: string,
    id: Int64,
    last: string,
    lowestAsk: string,
    highestBid: string,
    percentChange: string,
    baseVolume: string,
    quoteVolume: string,
    isFrozen: string,
    high24hr: string,
    low24hr: string)

  /** 24-hour volumes: totals per primary currency, and per market a
      mapping from currency to volume. */
  datatype Volume24h = Volume24h(
    primaryCurrenciesTotals: map<string, string>,
    markets: map<string, map<string, string>>)

  datatype Order = Order(value: real, amount: real)

  datatype OrderBook = OrderBook(
    pair: string,
    asks: seq<Order>,
    bids: seq<Order>,
    isFrozen: string,
    seqNumber: Int64)

  datatype TradeHistory = TradeHistory(
    globalTradeId: Int64,
    tradeId: Int64,
    date: string,
    tradeType: string,
    rate: real,
    amount: real,
    total: real)

  /** Currency description; `name` is the map key it was received under. */
  datatype Currency = Currency(
    id: Int64,
    name: string,
    txFee: string,
    minConf: Int64,
    depositAddress: string,
    disabled: Int64,
    delisted: Int64,
    frozen: Int64)

  datatype Loan = Loan(rate: real, amount: real, rangeMin: Int64, rangeMax: Int64)

  datatype LoanOrders = LoanOrders(offers: seq<Loan>, demands: seq<Loan>)

  datatype Balance = Balance(currency: string, amount: real)

  /** `BalanceAccount`: any string; the library names `"all"` and `""`. */
  type BalanceAccount = string
  const AllAccounts: BalanceAccount := "all"
  const ExchangeAccountOnly: BalanceAccount := ""

  datatype CompleteBalance = CompleteBalance(
    currency: string,
    available: real,
    onOrders: real,
    btcValue: real)

  /** Errors an operation returns. `UseGetAllOrderBooks` is the order-book
      precondition error; `VolumeEntryShape` is the error of a 24-hour
      volume entry that is neither an object of strings nor a string;
      `Transport` stands for whatever the HTTP round trip or the decoding
      of the response envelope reports, passed on unchanged. */
  datatype Error =
    | UseGetAllOrderBooks
    | VolumeEntryShape
    | Transport(reason: string)

  /** The credentials a client holds. */
  datatype Client = Client(key: string, secret: string)
}

=== FILE: requests.dfy ===
/** How the client builds a request: a public GET carrying its
    parameters in the query string, or an authenticated POST carrying
    them in a form body. Parameters are kept as a map; the URL and form
    encodings themselves are library behaviour. */
module Requests {
  import opened Poloniex

  /** A caller-supplied key/value parameter (`queryParam`, `postParam`). */
  datatype Param = Param(key: string, value: string)

  /** `url.Values.Set` applied to each parameter in turn, starting from
      `base`: a later parameter overwrites an earlier value of its key. */
  function Assemble(base: map<string, string>, params: seq<Param>): (q: map<string, string>)
    ensures q.Keys == base.Keys + (set i | 0 <= i < |params| :: params[i].key)
    decreases |params|
  {
    if |params| == 0 then base
    else
      var p := params[|params| - 1];
      Assemble(base, params[..|params| - 1])[p.key := p.value]
  }

  /** The last parameter with a given key decides its value. */
  lemma {:induction false} LastWriteWins(base: map<string, string>, params: seq<Param>, i: nat)
    requires i < |params|
    requires forall j :: i < j < |params| ==> params[j].key != params[i].key
    ensures params[i].key in Assemble(base, params)
    ensures Assemble(base, params)[params[i].key] == params[i].value
    decreases |params|
  {
    if i < |params| - 1 {
      LastWriteWins(base, params[..|params| - 1], i);
    }
  }

  /** A key no parameter names keeps its base value. */
  lemma {:induction false} BaseKept(base: map<string, string>, params: seq<Param>, k: string)
    requires k in base
    requires forall j :: 0 <= j < |params| ==> params[j].key != k
    ensures Assemble(base, params)[k] == base[k]
    decreases |params|
  {
    if |params| > 0 {
      BaseKept(base, params[..|params| - 1], k);
    }
  }

  /** The ten decimal digits. */
  const Digits: string := "0123456789"

  /** `fmt.Sprintf("%v", n)` for an unsigned integer: its decimal digits,
      without leading zeros. */
  function Decimal(n: nat): (s: string)
    ensures |s| > 0 && (s[0] == '0' <==> n == 0)
    decreases n
  {
    if n < 10 then [Digits[n]] else Decimal(n / 10) + [Digits[n % 10]]
  }

  /** `fmt.Sprintf("%d", n)` for a signed integer: a minus sign exactly
      for a negative number, then the decimal form of its magnitude. */
  function SignedDecimal(n: int): (s: string)
    ensures |s| > 0 && (s[0] == '-' <==> n < 0)
  {
    if n < 0 then "-" + Decimal(-n)
    else
      DecimalRoundTrip(n);
      Decimal(n)
  }

  predicate IsDigit(c: char)
  {
    '0' <= c <= '9'
  }

  /** A canonical decimal numeral: digits only, no leading zero. */
  predicate Canonical(s: string)
  {
    && |s| > 0
    && (forall i :: 0 <= i < |s| ==> IsDigit(s[i]))
    && (|s| > 1 ==> s[0] != '0')
  }

  /** The number a string of digits denotes. */
  function DecimalValue(s: string): nat
    requires forall i :: 0 <= i < |s| ==> IsDigit(s[i])
    decreases |s|
  {
    if |s| == 0 then 0
    else DecimalValue(s[..|s| - 1]) * 10 + DigitValue(s[|s| - 1])
  }

  function DigitValue(c: char): nat
    requires IsDigit(c)
  {
    (c as int) - ('0' as int)
  }

  lemma DigitsAt(d: nat)
    requires d < 10
    ensures IsDigit(Digits[d]) && DigitValue(Digits[d]) == d
  {
  }

  /** The decimal form of a number is canonical and denotes it. */
  lemma {:induction false} DecimalRoundTrip(n: nat)
    ensures Canonical(Decimal(n))
    ensures DecimalValue(Decimal(n)) == n
    decreases n
  {
    if n < 10 {
      DigitsAt(n);
    } else {
      DecimalRoundTrip(n / 10);
      DigitsAt(n % 10);
      var s := Decimal(n);
      assert s[..|s| - 1] == Decimal(n / 10);
    }
  }

  /** Every canonical numeral is the decimal form of its value. */
  lemma {:induction false} CanonicalRoundTrip(s: string)
    requires Canonical(s)
    ensures Decimal(DecimalValue(s)) == s
    decreases |s|
  {
    if |s| == 1 {
      OneDigit(s);
    } else {
      var p, c := s[..|s| - 1], s[|s| - 1];
      assert Canonical(p) by {
        assert p[0] == s[0];
      }
      CanonicalRoundTrip(p);
      AppendDigit(DecimalValue(p), c);
      assert DecimalValue(s) == DecimalValue(p) * 10 + DigitValue(c);
      assert s == p + [c];
    }
  }

  lemma OneDigit(s: string)
    requires |s| == 1 && IsDigit(s[0])
    ensures Decimal(DecimalValue(s)) == s
  {
    assert DecimalValue(s) == DigitValue(s[0]);
    assert Digits[DigitValue(s[0])] == s[0];
  }

  /** Appending a digit to the decimal form of a positive number gives
      the decimal form of ten times it plus the digit. */
  lemma AppendDigit(a: nat, c: char)
    requires IsDigit(c) && Decimal(a)[0] != '0'
    ensures Decimal(a * 10 + DigitValue(c)) == Decimal(a) + [c]
  {
    var d := DigitValue(c);
    var v := a * 10 + d;
    assert v / 10 == a && v % 10 == d && v >= 10;
    assert Digits[d] == c;
  }

  /** A canonical signed numeral: a canonical numeral, optionally
      preceded by a minus sign when it is not zero. */
  predicate SignedCanonical(s: string)
  {
    if |s| > 0 && s[0] == '-' then Canonical(s[1..]) && s[1..] != "0" else Canonical(s)
  }

  /** The integer a canonical signed numeral denotes. */
  function SignedValue(s: string): int
    requires SignedCanonical(s)
  {
    if |s| > 0 && s[0] == '-' then -(DecimalValue(s[1..]) as int) else DecimalValue(s)
  }

  /** The `%d` form of an integer is a canonical signed numeral that
      denotes it. */
  lemma SignedDecimalRoundTrip(n: int)
    ensures SignedCanonical(SignedDecimal(n))
    ensures SignedValue(SignedDecimal(n)) == n
  {
    var s := SignedDecimal(n);
    if n < 0 {
      DecimalRoundTrip(-n);
      assert s[1..] == Decimal(-n);
      assert Decimal(-n)[0] != '0';
    } else {
      DecimalRoundTrip(n);
    }
  }

  /** Every canonical signed numeral is the `%d` form of its value. */
  lemma SignedCanonicalRoundTrip(s: string)
    requires SignedCanonical(s)
    ensures SignedDecimal(SignedValue(s)) == s
  {
    if |s| > 0 && s[0] == '-' {
      var t := s[1..];
      CanonicalRoundTrip(t);
      assert Decimal(0) == "0";
      assert DecimalValue(t) != 0;
      assert s == "-" + t;
    } else {
      CanonicalRoundTrip(s);
    }
  }

  /** A request as the transport receives it. */
  datatype Request =
    | PublicGet(query: map<string, string>)
    | TradePost(form: map<string, string>, apiKey: string)

  function Method(r: Request): string
  {
    if r.PublicGet? then "GET" else "POST"
  }

  function Url(r: Request): string
  {
    if r.PublicGet? then PublicApi else TradeApi
  }

  /** `publicCall`: `command` is set first, then each parameter. */
  function PublicRequest(command: string, params: seq<Param>): (r: Request)
    ensures Method(r) == "GET" && Url(r) == "https://poloniex.com/public"
    ensures r.query.Keys == {"command"} + (set i | 0 <= i < |params| :: params[i].key)
  {
    PublicGet(Assemble(map["command" := command], params))
  }

  /** `tradeCall`: `command` and the nonce are set first, then each
      parameter; the API key travels in the `Key` header. The nonce is
      the clock reading the caller supplies. */
  function TradeRequest(c: Client, command: string, nonce: Int64, params: seq<Param>): (r: Request)
    ensures Method(r) == "POST" && Url(r) == "https://poloniex.com/tradingApi"
    ensures r.apiKey == c.key
    ensures r.form.Keys == {"command", "nonce"} + (set i | 0 <= i < |params| :: params[i].key)
  {
    TradePost(Assemble(map["command" := command, "nonce" := SignedDecimal(nonce as int)], params), c.key)
  }

  /** The headers of an authenticated request other than its signature. */
  function TradeHeaders(r: Request): map<string, string>
    requires r.TradePost?
  {
    map["Accept" := "application/json",
        "Content-Type" := "application/x-www-form-urlencoded",
        "Key" := r.apiKey]
  }

  /** In a public request, `command` holds the command name unless a
      parameter named `command` overrides it, in which case the last
      such parameter wins. */
  lemma PublicCommand(command: string, params: seq<Param>)
    ensures (forall j :: 0 <= j < |params| ==> params[j].key != "command") ==>
      PublicRequest(command, params).query["command"] == command
    ensures forall i ::
      (0 <= i < |params| && params[i].key == "command" &&
       (forall j :: i < j < |params| ==> params[j].key != "command")) ==>
      PublicRequest(command, params).query["command"] == params[i].value
  {
    var base := map["command" := command];
    if forall j :: 0 <= j < |params| ==> params[j].key != "command" {
      BaseKept(base, params, "command");
    }
    forall i | 0 <= i < |params| && params[i].key == "command" &&
      (forall j :: i < j < |params| ==> params[j].key != "command")
      ensures PublicRequest(command, params).query["command"] == params[i].value
    {
      LastWriteWins(base, params, i);
    }
  }

  /** In an authenticated request, `command` and `nonce` hold their
      values unless a parameter of the same name overrides them. */
  lemma TradeCommandAndNonce(c: Client, command: string, nonce: Int64, params: seq<Param>)
    requires forall j :: 0 <= j < |params| ==> params[j].key != "command" && params[j].key != "nonce"
    ensures TradeRequest(c, command, nonce, params).form["command"] == command
    ensures TradeRequest(c, command, nonce, params).form["nonce"] == SignedDecimal(nonce as int)
  {
    var base := map["command" := command, "nonce" := SignedDecimal(nonce as int)];
    BaseKept(base, params, "command");
    BaseKept(base, params, "nonce");
  }
}

=== FILE: tickers.dfy ===
/** `GetTickers`: one ticker per key of the response, labelled with its
    key. */
module Tickers {
  import opened Wrappers
  import opened Poloniex
  import opened Filtering
  import opened Enumeration
  import opened Requests

  /** The key overrides whatever currency the payload carried. */
  const LabelTicker: (string, Ticker) -> Option<Ticker> :=
    (k: string, t: Ticker) => Some(t.(currency := k))

  /** The loop of `GetTickers`, visiting the keys in `order`; a key
      holding a nil ticker is skipped. */
  function ConvertTickers(raw: map<string, Option<Ticker>>, order: seq<string>): seq<Ticker>
    requires IsEnumeration(order, raw)
  {
    FilterMap(Entries(raw, order), SkipNilEntry(LabelTicker))
  }

  /** The same loop as written: a nil ticker is dereferenced. */
  function ConvertTickersAsWritten(raw: map<string, Option<Ticker>>, order: seq<string>): Exec<seq<Ticker>>
    requires IsEnumeration(order, raw)
  {
    Run(Entries(raw, order), DerefEntry(LabelTicker))
  }

  /** Every ticker carries the key it was received under, in place of
      any currency of its payload, and is otherwise the payload
      unchanged; every key holding a ticker yields one, and no two
      tickers share a currency. */
  lemma TickersKeyed(raw: map<string, Option<Ticker>>, order: seq<string>)
    requires IsEnumeration(order, raw)
    ensures var r := ConvertTickers(raw, order);
      && (forall t :: t in r <==>
            t.currency in raw && raw[t.currency].Some? && t == raw[t.currency].value.(currency := t.currency))
      && (forall k :: k in raw && raw[k].Some? ==> exists t :: t in r && t.currency == k)
      && (forall i, j :: 0 <= i < j < |r| ==> r[i].currency != r[j].currency)
  {
    var r := ConvertTickers(raw, order);
    KeyedNilMembers(raw, order, LabelTicker);
    forall k | k in raw && raw[k].Some?
      ensures exists t :: t in r && t.currency == k
    {
      var t := raw[k].value.(currency := k);
      assert t in r;
    }
    TickersDistinct(raw, order);
  }

  lemma TickersDistinct(raw: map<string, Option<Ticker>>, order: seq<string>)
    requires IsEnumeration(order, raw)
    ensures var r := ConvertTickers(raw, order);
      forall i, j :: 0 <= i < j < |r| ==> r[i].currency != r[j].currency
  {
    var f := SkipNilEntry(LabelTicker);
    var key := (t: Ticker) => t.currency;
    forall k | k in raw && f((k, raw[k])).Some?
      ensures key(f((k, raw[k])).value) == k
    {
      assert f((k, raw[k])).value == raw[k].value.(currency := k);
    }
    KeyedDistinct(raw, order, f, key);
    var r := ConvertTickers(raw, order);
    assert r == FilterMap(Entries(raw, order), f);
    forall i, j | 0 <= i < j < |r|
      ensures r[i].currency != r[j].currency
    {
      assert key(r[i]) != key(r[j]);
    }
  }

  /** The visiting order changes only the order of the tickers. */
  lemma TickersOrderIndependent(raw: map<string, Option<Ticker>>, o1: seq<string>, o2: seq<string>)
    requires IsEnumeration(o1, raw) && IsEnumeration(o2, raw)
    ensures multiset(ConvertTickers(raw, o1)) == multiset(ConvertTickers(raw, o2))
  {
    KeyedOrderIndependent(raw, o1, o2, SkipNilEntry(LabelTicker), (t: Ticker) => t.currency);
  }

  /** As written, the loop panics exactly when some key holds a nil
      ticker; when it returns, it returns the corrected result. */
  lemma TickersAsWrittenPanics(raw: map<string, Option<Ticker>>, order: seq<string>)
    requires IsEnumeration(order, raw)
    ensures ConvertTickersAsWritten(raw, order).Panics? <==> exists k :: k in raw && raw[k].None?
    ensures ConvertTickersAsWritten(raw, order).Returns? ==>
      ConvertTickersAsWritten(raw, order).value == ConvertTickers(raw, order)
  {
    KeyedAsWritten(raw, order, LabelTicker);
  }

  /** A response `{"BTC_ETH": null}` makes the loop as written panic; the
      corrected loop returns no ticker. */
  lemma NullTickerPanics()
    ensures ConvertTickersAsWritten(map["BTC_ETH" := None], ["BTC_ETH"]) == Panics
    ensures ConvertTickers(map["BTC_ETH" := None], ["BTC_ETH"]) == []
  {
    var raw: map<string, Option<Ticker>> := map["BTC_ETH" := None];
    TickersAsWrittenPanics(raw, ["BTC_ETH"]);
    assert Entries(raw, ["BTC_ETH"])[..0] == [];
  }

  function TickersRequest(): Request
  {
    PublicRequest("returnTicker", [])
  }

  /** `GetTickers`: a transport failure is returned unchanged; otherwise
      there is one ticker per key holding a ticker, which is that payload
      labelled with its key, and no two tickers share a currency. */
  function GetTickers(fetch: Request -> Result<map<string, Option<Ticker>>, Error>, order: seq<string>)
    : (r: Result<seq<Ticker>, Error>)
    requires fetch(TickersRequest()).Success? ==> IsEnumeration(order, fetch(TickersRequest()).value)
    ensures r.Failure? <==> fetch(TickersRequest()).Failure?
    ensures r.Failure? ==> r.error == fetch(TickersRequest()).error
    ensures r.Success? ==> var raw := fetch(TickersRequest()).value;
      && (forall t :: t in r.value <==>
            t.currency in raw && raw[t.currency].Some? && t == raw[t.currency].value.(currency := t.currency))
      && (forall k :: k in raw && raw[k].Some? ==> exists t :: t in r.value && t.currency == k)
      && (forall i, j :: 0 <= i < j < |r.value| ==> r.value[i].currency != r.value[j].currency)
  {
    match fetch(TickersRequest())
    case Failure(e) => Failure(e)
    case Success(raw) =>
      TickersKeyed(raw, order);
      Success(ConvertTickers(raw, order))
  }
}

=== FILE: trades.dfy ===
/** `GetTradeHistory`: the query it sends and the conversion of the
    trades it receives. */
module Trades {
  import opened Wrappers
  import opened Json
  import opened Poloniex
  import opened Filtering
  import opened Requests

  /** `tradeHistoryFromJSON`: rate, amount and total arrive as strings. */
  datatype TradeRaw = TradeRaw(
    globalTradeId: Int64,
    tradeId: Int64,
    date: string,
    tradeType: string,
    rate: string,
    amount: string,
    total: string)

  /** One trade: rate, amount and total are parsed in that order; the
      first failure drops the trade. */
  function ParseTrade(fm: Fmt, t: TradeRaw): Option<TradeHistory>
  {
    match fm.parseFloat(t.rate)
    case None => None
    case Some(rate) =>
      match fm.parseFloat(t.amount)
      case None => None
      case Some(amount) =>
        match fm.parseFloat(t.total)
        case None => None
        case Some(total) =>
          Some(TradeHistory(t.globalTradeId, t.tradeId, t.date, t.tradeType, rate, amount, total))
  }

  function TradeParser(fm: Fmt): TradeRaw -> Option<TradeHistory>
  {
    t => ParseTrade(fm, t)
  }

  /** The loop of `GetTradeHistory`; a nil trade is skipped. */
  function ConvertTradeHistory(fm: Fmt, raw: seq<Option<TradeRaw>>): seq<TradeHistory>
  {
    FilterMap(raw, SkipNil(TradeParser(fm)))
  }

  /** The same loop as written: a nil trade is dereferenced. */
  function ConvertTradeHistoryAsWritten(fm: Fmt, raw: seq<Option<TradeRaw>>): Exec<seq<TradeHistory>>
  {
    Run(raw, Deref(TradeParser(fm)))
  }

  /** All three numeric fields of a trade parse. */
  ghost predicate Parses(fm: Fmt, t: TradeRaw)
  {
    fm.parseFloat(t.rate).Some? && fm.parseFloat(t.amount).Some? && fm.parseFloat(t.total).Some?
  }

  /** `h` is trade `t` with its numbers parsed and every other field
      copied. */
  ghost predicate TradeFrom(fm: Fmt, t: TradeRaw, h: TradeHistory)
  {
    && h.globalTradeId == t.globalTradeId
    && h.tradeId == t.tradeId
    && h.date == t.date
    && h.tradeType == t.tradeType
    && fm.parseFloat(t.rate) == Some(h.rate)
    && fm.parseFloat(t.amount) == Some(h.amount)
    && fm.parseFloat(t.total) == Some(h.total)
  }

  lemma ParseTradeSpec(fm: Fmt, o: Option<TradeRaw>)
    ensures SkipNil(TradeParser(fm))(o).Some? <==> o.Some? && Parses(fm, o.value)
    ensures SkipNil(TradeParser(fm))(o).Some? ==> TradeFrom(fm, o.value, SkipNil(TradeParser(fm))(o).value)
  {
  }

  /** The converted history is the order-preserving subsequence of the
      trades whose rate, amount and total all parse; position `j` of the
      output is trade `ix[j]` of the input with its identifiers, date and
      type copied. */
  lemma TradeHistoryKept(fm: Fmt, raw: seq<Option<TradeRaw>>)
    ensures var r, ix := ConvertTradeHistory(fm, raw), KeptIndices(raw, SkipNil(TradeParser(fm)));
      && |ix| == |r|
      && (forall j :: 0 <= j < |r| ==>
            ix[j] < |raw| && raw[ix[j]].Some? && TradeFrom(fm, raw[ix[j]].value, r[j]))
      && (forall j, k :: 0 <= j < k < |r| ==> ix[j] < ix[k])
      && (forall i :: 0 <= i < |raw| ==> (i in ix <==> raw[i].Some? && Parses(fm, raw[i].value)))
  {
    var f := SkipNil(TradeParser(fm));
    FilterMapIndexed(raw, f);
    forall o: Option<TradeRaw> | true
      ensures f(o).Some? <==> o.Some? && Parses(fm, o.value)
      ensures f(o).Some? ==> TradeFrom(fm, o.value, f(o).value)
    {
      ParseTradeSpec(fm, o);
    }
  }

  /** Every converted trade is some received trade with its numbers
      parsed, and every received trade whose numbers parse is converted. */
  lemma TradeHistoryMembers(fm: Fmt, raw: seq<Option<TradeRaw>>)
    ensures var r := ConvertTradeHistory(fm, raw);
      && (forall h :: h in r ==> exists i :: 0 <= i < |raw| && raw[i].Some? && TradeFrom(fm, raw[i].value, h))
      && (forall i :: 0 <= i < |raw| && raw[i].Some? && Parses(fm, raw[i].value) ==>
            exists h :: h in r && TradeFrom(fm, raw[i].value, h))
  {
    var r, ix := ConvertTradeHistory(fm, raw), KeptIndices(raw, SkipNil(TradeParser(fm)));
    TradeHistoryKept(fm, raw);
    forall h | h in r
      ensures exists i :: 0 <= i < |raw| && raw[i].Some? && TradeFrom(fm, raw[i].value, h)
    {
      var j :| 0 <= j < |r| && r[j] == h;
      assert TradeFrom(fm, raw[ix[j]].value, h);
    }
    forall i | 0 <= i < |raw| && raw[i].Some? && Parses(fm, raw[i].value)
      ensures exists h :: h in r && TradeFrom(fm, raw[i].value, h)
    {
      assert i in ix;
      var j :| 0 <= j < |ix| && ix[j] == i;
      assert r[j] in r;
    }
  }

  /** The wire form of a trade, its numbers rendered as text. */
  function EncodeTrade(render: real -> string): TradeHistory -> Option<TradeRaw>
  {
    (h: TradeHistory) =>
      Some(TradeRaw(h.globalTradeId, h.tradeId, h.date, h.tradeType, render(h.rate), render(h.amount), render(h.total)))
  }

  /** Converting the wire form of a history gives the history back, when
      the parser reads back every rendered number. */
  lemma TradeHistoryRoundTrip(fm: Fmt, render: real -> string, hs: seq<TradeHistory>)
    requires forall i :: 0 <= i < |hs| ==>
      && fm.parseFloat(render(hs[i].rate)) == Some(hs[i].rate)
      && fm.parseFloat(render(hs[i].amount)) == Some(hs[i].amount)
      && fm.parseFloat(render(hs[i].total)) == Some(hs[i].total)
    ensures ConvertTradeHistory(fm, MapSeq(hs, EncodeTrade(render))) == hs
  {
    FilterMapInverts(hs, EncodeTrade(render), SkipNil(TradeParser(fm)));
  }

  /** A trade whose amount is `"abc"` is dropped whole; a trade with rate
      `"0.015"`, amount `"10"` and total `"0.15"` is kept with those
      values. */
  lemma TradeHistoryExample(fm: Fmt, id: Int64, date: string)
    requires fm.parseFloat("0.015") == Some(0.015)
    requires fm.parseFloat("abc") == None
    requires fm.parseFloat("1.0") == Some(1.0)
    requires fm.parseFloat("10") == Some(10.0)
    requires fm.parseFloat("0.15") == Some(0.15)
    ensures ConvertTradeHistory(fm, [Some(TradeRaw(id, id, date, "buy", "0.015", "abc", "1.0")),
                                     Some(TradeRaw(id, id, date, "sell", "0.015", "10", "0.15"))])
      == [TradeHistory(id, id, date, "sell", 0.015, 10.0, 0.15)]
  {
    var raw := [Some(TradeRaw(id, id, date, "buy", "0.015", "abc", "1.0")),
                Some(TradeRaw(id, id, date, "sell", "0.015", "10", "0.15"))];
    var f := SkipNil(TradeParser(fm));
    assert f(raw[0]) == None;
    assert f(raw[1]) == Some(TradeHistory(id, id, date, "sell", 0.015, 10.0, 0.15));
    assert raw[..1][..0] == [] && raw[..1] == [raw[0]];
    assert FilterMap(raw[..1], f) == [];
  }

  /** As written, the loop panics exactly when some trade is nil; when
      it returns, it returns the corrected history. */
  lemma TradeHistoryAsWrittenPanics(fm: Fmt, raw: seq<Option<TradeRaw>>)
    ensures ConvertTradeHistoryAsWritten(fm, raw).Panics? <==> exists i :: 0 <= i < |raw| && raw[i].None?
    ensures ConvertTradeHistoryAsWritten(fm, raw).Returns? ==>
      ConvertTradeHistoryAsWritten(fm, raw).value == ConvertTradeHistory(fm, raw)
  {
    DerefRecovers(TradeParser(fm));
    RunRecovers(raw, Deref(TradeParser(fm)), SkipNil(TradeParser(fm)));
  }

  /** A response `[null]` makes the loop as written panic; the corrected
      loop returns an empty history. */
  lemma NullTradePanics(fm: Fmt)
    ensures ConvertTradeHistoryAsWritten(fm, [None]) == Panics
    ensures ConvertTradeHistory(fm, [None]) == []
  {
    var raw: seq<Option<TradeRaw>> := [None];
    TradeHistoryAsWrittenPanics(fm, raw);
    assert raw[..0] == [];
  }

  /** The range is sent only when both of its ends are non-zero. */
  function TradeHistoryParams(pair: string, start: Uint64, end: Uint64): seq<Param>
  {
    [Param("currencyPair", pair)] +
    (if start != 0 && end != 0
     then [Param("start", Decimal(start as nat)), Param("end", Decimal(end as nat))]
     else [])
  }

  function TradeHistoryRequest(pair: string, start: Uint64, end: Uint64): Request
  {
    PublicRequest("returnTradeHistory", TradeHistoryParams(pair, start, end))
  }

  /** The trade-history query names the command and the pair, and carries
      `start` and `end`, in decimal, exactly when both are non-zero. */
  lemma TradeHistoryQuery(pair: string, start: Uint64, end: Uint64)
    ensures var q := TradeHistoryRequest(pair, start, end).query;
      && q.Keys == {"command", "currencyPair"} + (if start != 0 && end != 0 then {"start", "end"} else {})
      && q["command"] == "returnTradeHistory"
      && q["currencyPair"] == pair
      && (start != 0 && end != 0 ==> q["start"] == Decimal(start as nat) && q["end"] == Decimal(end as nat))
  {
    if start != 0 && end != 0 {
      RangeQuery(pair, start, end);
    } else {
      PairQuery(pair, start, end);
    }
  }

  lemma RangeQuery(pair: string, start: Uint64, end: Uint64)
    requires start != 0 && end != 0
    ensures TradeHistoryRequest(pair, start, end).query ==
      map["command" := "returnTradeHistory", "currencyPair" := pair,
          "start" := Decimal(start as nat), "end" := Decimal(end as nat)]
  {
    var params := TradeHistoryParams(pair, start, end);
    var base := map["command" := "returnTradeHistory"];
    assert params[..2][..1] == params[..1];
    assert Assemble(base, params[..0]) == base;
    assert Assemble(base, params[..1]) == base["currencyPair" := pair];
    assert Assemble(base, params[..2]) == base["currencyPair" := pair]["start" := Decimal(start as nat)];
  }

  lemma PairQuery(pair: string, start: Uint64, end: Uint64)
    requires start == 0 || end == 0
    ensures TradeHistoryRequest(pair, start, end).query ==
      map["command" := "returnTradeHistory", "currencyPair" := pair]
  {
    var params := TradeHistoryParams(pair, start, end);
    var base := map["command" := "returnTradeHistory"];
    assert Assemble(base, params[..0]) == base;
  }

  /** `GetTradeHistory`: a transport failure is returned unchanged;
      otherwise the result holds exactly the conversions of the received
      trades whose numbers parse. */
  function GetTradeHistory(fm: Fmt, fetch: Request -> Result<seq<Option<TradeRaw>>, Error>,
                           pair: string, start: Uint64, end: Uint64): (r: Result<seq<TradeHistory>, Error>)
    ensures r.Failure? <==> fetch(TradeHistoryRequest(pair, start, end)).Failure?
    ensures r.Failure? ==> r.error == fetch(TradeHistoryRequest(pair, start, end)).error
    ensures r.Success? ==> var raw := fetch(TradeHistoryRequest(pair, start, end)).value;
      && |r.value| <= |raw|
      && (forall h :: h in r.value ==> exists i :: 0 <= i < |raw| && raw[i].Some? && TradeFrom(fm, raw[i].value, h))
      && (forall i :: 0 <= i < |raw| && raw[i].Some? && Parses(fm, raw[i].value) ==>
            exists h :: h in r.value && TradeFrom(fm, raw[i].value, h))
  {
    match fetch(TradeHistoryRequest(pair, start, end))
    case Failure(e) => Failure(e)
    case Success(raw) =>
      TradeHistoryMembers(fm, raw);
      Success(ConvertTradeHistory(fm, raw))
  }
}

=== FILE: volume.dfy ===
/** `Get24hVolume`: every top-level entry of the response is either the
    volume of one market (an object of strings) or the total of a
    primary currency (a string); an entry that is neither fails the
    whole call. */
module Volume {
  import opened Wrappers
  import opened Json
  import opened Poloniex
  import opened Enumeration
  import opened Requests

  /** The two shapes an entry can take. */
  datatype VolumeEntry = MarketVolume(volumes: map<string, string>) | PrimaryTotal(total: string)

  /** What a JSON null decodes to inside a `map[string]string`. */
  function StringOrEmpty(v: JValue): string
  {
    if v.JStr? then v.s else ""
  }

  /** `json.Unmarshal` into a `map[string]string`, then, if that fails,
      into a `string`. The first succeeds on an object whose values are
      strings or null (a null value becomes `""`) and on the literal
      null (a nil map); the second on a string. */
  function Probe(v: JValue): Option<VolumeEntry>
  {
    match v
    case JObj(fields) =>
      if forall k :: k in fields ==> fields[k].JStr? || fields[k].JNull?
      then Some(MarketVolume(map k | k in fields :: StringOrEmpty(fields[k])))
      else None
    case JNull => Some(MarketVolume(map[]))
    case JStr(s) => Some(PrimaryTotal(s))
    case _ => None
  }

  /** The entry is present (not a nil `*json.RawMessage`) and has one of
      the two shapes. */
  ghost predicate Classified(o: Option<JValue>)
  {
    o.Some? && Probe(o.value).Some?
  }

  /** `vol` files every key of `order` under exactly the shape its entry
      has, with the entry's value, and holds no other key. */
  ghost predicate SplitOf(raw: map<string, Option<JValue>>, order: seq<string>, vol: Volume24h)
  {
    && (forall k :: k in vol.markets ==>
          k in raw && raw[k].Some? && Probe(raw[k].value) == Some(MarketVolume(vol.markets[k])))
    && (forall k :: k in vol.primaryCurrenciesTotals ==>
          k in raw && raw[k] == Some(JStr(vol.primaryCurrenciesTotals[k])))
    && (forall i :: 0 <= i < |order| ==> order[i] in vol.markets || order[i] in vol.primaryCurrenciesTotals)
    && (forall k :: k in vol.markets || k in vol.primaryCurrenciesTotals ==> k in order)
  }

  /** Files one classified entry under its shape. */
  function File(vol: Volume24h, k: string, e: VolumeEntry): Volume24h
  {
    match e
    case MarketVolume(m) => vol.(markets := vol.markets[k := m])
    case PrimaryTotal(t) => vol.(primaryCurrenciesTotals := vol.primaryCurrenciesTotals[k := t])
  }

  /** Filing the entry of the next key extends a split of the keys
      visited so far to a split of one more key. */
  lemma FileExtends(raw: map<string, Option<JValue>>, order: seq<string>, vol: Volume24h, e: VolumeEntry)
    requires |order| > 0 && forall i :: 0 <= i < |order| ==> order[i] in raw
    requires SplitOf(raw, order[..|order| - 1], vol)
    requires raw[order[|order| - 1]].Some? && Probe(raw[order[|order| - 1]].value) == Some(e)
    ensures SplitOf(raw, order, File(vol, order[|order| - 1], e))
  {
    var p, k := order[..|order| - 1], order[|order| - 1];
    var nv := File(vol, k, e);
    forall x | x in nv.markets
      ensures x in raw && raw[x].Some? && Probe(raw[x].value) == Some(MarketVolume(nv.markets[x]))
    {
    }
    forall x | x in nv.primaryCurrenciesTotals
      ensures x in raw && raw[x] == Some(JStr(nv.primaryCurrenciesTotals[x]))
    {
    }
    forall i | 0 <= i < |order|
      ensures order[i] in nv.markets || order[i] in nv.primaryCurrenciesTotals
    {
      if i < |p| {
        assert order[i] == p[i];
      }
    }
    forall x | x in nv.markets || x in nv.primaryCurrenciesTotals
      ensures x in order
    {
      if x != k {
        var i :| 0 <= i < |p| && p[i] == x;
        assert order[i] == x;
      }
    }
  }

  /** The loop of `Get24hVolume`, visiting the keys in `order`; a nil
      entry fails the call like any entry of neither shape. */
  function SplitVolumes(raw: map<string, Option<JValue>>, order: seq<string>): (r: Result<Volume24h, Error>)
    requires forall i :: 0 <= i < |order| ==> order[i] in raw
    ensures r.Success? <==> forall i :: 0 <= i < |order| ==> Classified(raw[order[i]])
    ensures r.Failure? ==> r.error == VolumeEntryShape
    ensures r.Success? ==> SplitOf(raw, order, r.value)
    decreases |order|
  {
    if |order| == 0 then Success(Volume24h(map[], map[]))
    else
      var p, k := order[..|order| - 1], order[|order| - 1];
      assert forall i :: 0 <= i < |p| ==> p[i] == order[i];
      match SplitVolumes(raw, p)
      case Failure(e) => Failure(e)
      case Success(vol) =>
        match raw[k]
        case None => Failure(VolumeEntryShape)
        case Some(v) =>
          match Probe(v)
          case None => Failure(VolumeEntryShape)
          case Some(e) =>
            FileExtends(raw, order, vol, e);
            Success(File(vol, k, e))
  }

  /** The same loop as written: a nil entry is dereferenced, and the
      first entry of neither shape returns the error at once. */
  function SplitVolumesAsWritten(raw: map<string, Option<JValue>>, order: seq<string>)
    : (r: Exec<Result<Volume24h, Error>>)
    requires forall i :: 0 <= i < |order| ==> order[i] in raw
    ensures r.Panics? ==> exists i :: 0 <= i < |order| && raw[order[i]].None?
    ensures r.Returns? && r.value.Failure? ==> r.value.error == VolumeEntryShape
    decreases |order|
  {
    if |order| == 0 then Returns(Success(Volume24h(map[], map[])))
    else
      var p, k := order[..|order| - 1], order[|order| - 1];
      assert forall i :: 0 <= i < |p| ==> p[i] == order[i];
      match SplitVolumesAsWritten(raw, p)
      case Panics => Panics
      case Returns(Failure(e)) => Returns(Failure(e))
      case Returns(Success(vol)) =>
        match raw[k]
        case None => Panics
        case Some(v) =>
          match Probe(v)
          case None => Returns(Failure(VolumeEntryShape))
          case Some(e) => Returns(Success(File(vol, k, e)))
  }

  /** The result computed without any loop: the markets are the keys
      whose entry probes as a market volume, the totals those whose entry
      probes as a primary total. */
  function ExpectedVolume(raw: map<string, Option<JValue>>): Volume24h
  {
    Volume24h(
      map k | k in raw && raw[k].Some? && Probe(raw[k].value).Some? && Probe(raw[k].value).value.PrimaryTotal?
        :: Probe(raw[k].value).value.total,
      map k | k in raw && raw[k].Some? && Probe(raw[k].value).Some? && Probe(raw[k].value).value.MarketVolume?
        :: Probe(raw[k].value).value.volumes)
  }

  /** For any visiting order, the call succeeds exactly when every entry
      has one of the two shapes, and then returns the loop-free result:
      every key of the response lands in exactly one of the two maps,
      with its value. */
  lemma SplitVolumesExpected(raw: map<string, Option<JValue>>, order: seq<string>)
    requires IsEnumeration(order, raw)
    ensures SplitVolumes(raw, order).Success? <==> forall k :: k in raw ==> Classified(raw[k])
    ensures SplitVolumes(raw, order).Success? ==>
      && SplitVolumes(raw, order).value == ExpectedVolume(raw)
      && SplitVolumes(raw, order).value.markets.Keys !! SplitVolumes(raw, order).value.primaryCurrenciesTotals.Keys
      && SplitVolumes(raw, order).value.markets.Keys + SplitVolumes(raw, order).value.primaryCurrenciesTotals.Keys
         == raw.Keys
  {
    var r := SplitVolumes(raw, order);
    if forall k :: k in raw ==> Classified(raw[k]) {
      assert forall i :: 0 <= i < |order| ==> Classified(raw[order[i]]);
      SplitIsExpected(raw, order, r.value);
    } else {
      var k :| k in raw && !Classified(raw[k]);
      var i :| 0 <= i < |order| && order[i] == k;
      assert !Classified(raw[order[i]]);
    }
  }

  /** A split over an enumeration of the keys is the loop-free result. */
  lemma SplitIsExpected(raw: map<string, Option<JValue>>, order: seq<string>, vol: Volume24h)
    requires IsEnumeration(order, raw)
    requires SplitOf(raw, order, vol)
    ensures vol == ExpectedVolume(raw)
    ensures vol.markets.Keys !! vol.primaryCurrenciesTotals.Keys
    ensures vol.markets.Keys + vol.primaryCurrenciesTotals.Keys == raw.Keys
  {
    var ex := ExpectedVolume(raw);
    assert forall k :: k in vol.markets ==> k !in vol.primaryCurrenciesTotals;
    forall k | k in raw
      ensures k in vol.markets || k in vol.primaryCurrenciesTotals
    {
      var i :| 0 <= i < |order| && order[i] == k;
    }
    SplitMarketsExpected(raw, order, vol);
    SplitTotalsExpected(raw, order, vol);
  }

  lemma SplitMarketsExpected(raw: map<string, Option<JValue>>, order: seq<string>, vol: Volume24h)
    requires IsEnumeration(order, raw)
    requires SplitOf(raw, order, vol)
    requires forall k :: k in raw ==> k in vol.markets || k in vol.primaryCurrenciesTotals
    ensures vol.markets == ExpectedVolume(raw).markets
  {
    var ex := ExpectedVolume(raw).markets;
    forall k | k in raw
      ensures k in vol.markets <==> k in ex
    {
      if k in vol.primaryCurrenciesTotals {
        assert Probe(raw[k].value) == Some(PrimaryTotal(vol.primaryCurrenciesTotals[k]));
      }
    }
  }

  lemma SplitTotalsExpected(raw: map<string, Option<JValue>>, order: seq<string>, vol: Volume24h)
    requires IsEnumeration(order, raw)
    requires SplitOf(raw, order, vol)
    requires forall k :: k in raw ==> k in vol.markets || k in vol.primaryCurrenciesTotals
    ensures vol.primaryCurrenciesTotals == ExpectedVolume(raw).primaryCurrenciesTotals
  {
    var ex := ExpectedVolume(raw).primaryCurrenciesTotals;
    forall k | k in raw
      ensures k in vol.primaryCurrenciesTotals <==> k in ex
    {
      if k in vol.primaryCurrenciesTotals {
        assert Probe(raw[k].value) == Some(PrimaryTotal(vol.primaryCurrenciesTotals[k]));
      }
    }
  }

  /** The visiting order does not matter. */
  lemma SplitVolumesOrderIndependent(raw: map<string, Option<JValue>>, o1: seq<string>, o2: seq<string>)
    requires IsEnumeration(o1, raw) && IsEnumeration(o2, raw)
    ensures SplitVolumes(raw, o1) == SplitVolumes(raw, o2)
  {
    SplitVolumesExpected(raw, o1);
    SplitVolumesExpected(raw, o2);
  }

  /** The entry at `i` is nil and every entry visited before it has one
      of the two shapes: the loop as written reaches it and panics. */
  ghost predicate NilFirst(raw: map<string, Option<JValue>>, order: seq<string>, i: int)
  {
    && 0 <= i < |order| && order[i] in raw && raw[order[i]].None?
    && forall j :: 0 <= j < i ==> order[j] in raw && Classified(raw[order[j]])
  }

  /** As written, the loop panics exactly when the first entry that does
      not classify, in visiting order, is nil; when it returns, it
      returns the corrected result. */
  lemma SplitVolumesAsWrittenPanics(raw: map<string, Option<JValue>>, order: seq<string>)
    requires forall i :: 0 <= i < |order| ==> order[i] in raw
    ensures SplitVolumesAsWritten(raw, order).Panics? <==> exists i :: NilFirst(raw, order, i)
    ensures SplitVolumesAsWritten(raw, order).Returns? ==>
      SplitVolumesAsWritten(raw, order).value == SplitVolumes(raw, order)
  {
    AsWrittenAgrees(raw, order);
    AsWrittenPanicsAtNil(raw, order);
  }

  lemma {:induction false} AsWrittenAgrees(raw: map<string, Option<JValue>>, order: seq<string>)
    requires forall i :: 0 <= i < |order| ==> order[i] in raw
    ensures SplitVolumesAsWritten(raw, order).Returns? ==>
      SplitVolumesAsWritten(raw, order).value == SplitVolumes(raw, order)
    decreases |order|
  {
    if |order| > 0 {
      AsWrittenAgrees(raw, order[..|order| - 1]);
    }
  }

  lemma {:induction false} AsWrittenPanicsAtNil(raw: map<string, Option<JValue>>, order: seq<string>)
    requires forall i :: 0 <= i < |order| ==> order[i] in raw
    ensures SplitVolumesAsWritten(raw, order).Panics? <==> exists i :: NilFirst(raw, order, i)
    decreases |order|
  {
    if |order| > 0 {
      var p := order[..|order| - 1];
      AsWrittenPanicsAtNil(raw, p);
      AsWrittenAgrees(raw, p);
      if SplitVolumesAsWritten(raw, p).Panics? {
        PanicKeepsWitness(raw, order, p);
      } else if SplitVolumes(raw, p).Failure? {
        NoNilFirstAfterFailure(raw, order, p);
      } else if raw[order[|order| - 1]].None? {
        NilFirstAtEnd(raw, order, p);
      } else {
        NoNilFirstAtPresent(raw, order, p);
      }
    }
  }

  /** A nil entry reached within the visited keys is still reached once
      one more key is visited. */
  lemma PanicKeepsWitness(raw: map<string, Option<JValue>>, order: seq<string>, p: seq<string>)
    requires |order| > 0 && p == order[..|order| - 1]
    requires exists i :: NilFirst(raw, p, i)
    ensures exists i :: NilFirst(raw, order, i)
  {
    var i :| NilFirst(raw, p, i);
    assert forall j :: 0 <= j <= i ==> p[j] == order[j];
    assert NilFirst(raw, order, i);
  }

  /** An unclassified entry in the prefix stops the loop before any nil
      entry after it, and no nil entry is reached before it. */
  lemma NoNilFirstAfterFailure(raw: map<string, Option<JValue>>, order: seq<string>, p: seq<string>)
    requires |order| > 0 && p == order[..|order| - 1]
    requires forall i :: 0 <= i < |p| ==> p[i] in raw
    requires !exists i :: NilFirst(raw, p, i)
    requires !forall i :: 0 <= i < |p| ==> Classified(raw[p[i]])
    ensures !exists i :: NilFirst(raw, order, i)
  {
    var j :| 0 <= j < |p| && !Classified(raw[p[j]]);
    forall i | 0 <= i < |order|
      ensures !NilFirst(raw, order, i)
    {
      if i < |p| {
        assert forall j :: 0 <= j <= i ==> p[j] == order[j];
        assert !NilFirst(raw, p, i);
      } else {
        assert p[j] == order[j];
      }
    }
  }

  /** After a fully classified prefix, a nil last entry is reached. */
  lemma NilFirstAtEnd(raw: map<string, Option<JValue>>, order: seq<string>, p: seq<string>)
    requires |order| > 0 && p == order[..|order| - 1]
    requires forall i :: 0 <= i < |order| ==> order[i] in raw
    requires forall i :: 0 <= i < |p| ==> Classified(raw[p[i]])
    requires raw[order[|order| - 1]].None?
    ensures NilFirst(raw, order, |order| - 1)
  {
    assert forall j :: 0 <= j < |p| ==> p[j] == order[j];
  }

  /** With no nil entry reached in the prefix and a present last entry,
      no nil entry is reached at all. */
  lemma NoNilFirstAtPresent(raw: map<string, Option<JValue>>, order: seq<string>, p: seq<string>)
    requires |order| > 0 && p == order[..|order| - 1]
    requires !exists i :: NilFirst(raw, p, i)
    requires order[|order| - 1] in raw && raw[order[|order| - 1]].Some?
    ensures !exists i :: NilFirst(raw, order, i)
  {
    forall i | 0 <= i < |p|
      ensures !NilFirst(raw, order, i)
    {
      assert forall j :: 0 <= j <= i ==> p[j] == order[j];
      assert !NilFirst(raw, p, i);
    }
  }

  /** A response `{"totalBTC": null}` makes the loop as written panic;
      the corrected loop fails the call. */
  lemma NullVolumePanics()
    ensures SplitVolumesAsWritten(map["totalBTC" := None], ["totalBTC"]) == Panics
    ensures SplitVolumes(map["totalBTC" := None], ["totalBTC"]) == Failure(VolumeEntryShape)
  {
    var raw: map<string, Option<JValue>> := map["totalBTC" := None];
    assert ["totalBTC"][..0] == [];
  }

  /** The wire form of a volume: totals as strings, market volumes as
      objects of strings. */
  function EncodeVolume(vol: Volume24h): map<string, Option<JValue>>
  {
    map k | k in vol.primaryCurrenciesTotals.Keys + vol.markets.Keys ::
      if k in vol.markets
      then Some(JObj(map c | c in vol.markets[k] :: JStr(vol.markets[k][c])))
      else Some(JStr(vol.primaryCurrenciesTotals[k]))
  }

  /** Decoding the wire form of a volume gives it back, whatever the
      visiting order, when no key is both a market and a total. */
  lemma VolumeRoundTrip(vol: Volume24h, order: seq<string>)
    requires vol.markets.Keys !! vol.primaryCurrenciesTotals.Keys
    requires IsEnumeration(order, EncodeVolume(vol))
    ensures SplitVolumes(EncodeVolume(vol), order) == Success(vol)
  {
    var raw := EncodeVolume(vol);
    EncodeProbes(vol);
    SplitVolumesExpected(raw, order);
    EncodeMarketsExpected(vol);
    EncodeTotalsExpected(vol);
  }

  /** Every entry of the wire form probes back to the entry it encodes. */
  lemma EncodeProbes(vol: Volume24h)
    requires vol.markets.Keys !! vol.primaryCurrenciesTotals.Keys
    ensures forall k :: k in vol.markets ==>
      EncodeVolume(vol)[k].Some? && Probe(EncodeVolume(vol)[k].value) == Some(MarketVolume(vol.markets[k]))
    ensures forall k :: k in vol.primaryCurrenciesTotals ==>
      EncodeVolume(vol)[k] == Some(JStr(vol.primaryCurrenciesTotals[k]))
    ensures forall k :: k in EncodeVolume(vol) ==> Classified(EncodeVolume(vol)[k])
  {
    forall k | k in vol.markets
      ensures EncodeVolume(vol)[k].Some? && Probe(EncodeVolume(vol)[k].value) == Some(MarketVolume(vol.markets[k]))
    {
      EncodeMarketProbes(vol, k);
    }
  }

  /** A market's wire form probes back to the market's volumes. */
  lemma EncodeMarketProbes(vol: Volume24h, k: string)
    requires k in vol.markets
    ensures EncodeVolume(vol)[k].Some? && Probe(EncodeVolume(vol)[k].value) == Some(MarketVolume(vol.markets[k]))
  {
    var fields := map c | c in vol.markets[k] :: JStr(vol.markets[k][c]);
    assert EncodeVolume(vol)[k] == Some(JObj(fields));
    assert (map c | c in fields :: StringOrEmpty(fields[c])) == vol.markets[k];
  }

  lemma EncodeMarketsExpected(vol: Volume24h)
    requires vol.markets.Keys !! vol.primaryCurrenciesTotals.Keys
    ensures ExpectedVolume(EncodeVolume(vol)).markets == vol.markets
  {
    var raw := EncodeVolume(vol);
    var ex := ExpectedVolume(raw).markets;
    assert ex.Keys <= vol.markets.Keys;
    forall k | k in vol.markets
      ensures k in ex && ex[k] == vol.markets[k]
    {
      EncodeMarketProbes(vol, k);
    }
  }

  lemma EncodeTotalsExpected(vol: Volume24h)
    requires vol.markets.Keys !! vol.primaryCurrenciesTotals.Keys
    ensures ExpectedVolume(EncodeVolume(vol)).primaryCurrenciesTotals == vol.primaryCurrenciesTotals
  {
    EncodeProbes(vol);
    var raw := EncodeVolume(vol);
    var ex := ExpectedVolume(raw).primaryCurrenciesTotals;
    assert ex.Keys <= vol.primaryCurrenciesTotals.Keys;
    forall k | k in vol.primaryCurrenciesTotals
      ensures k in ex && ex[k] == vol.primaryCurrenciesTotals[k]
    {
      assert raw[k] == Some(JStr(vol.primaryCurrenciesTotals[k]));
    }
  }

  /** `{"totalBTC": "7364.48", "BTC_LTC": {"BTC": "2.23", "LTC": "87.10"}}`
      splits into one total and one market. */
  lemma VolumeExample(order: seq<string>)
    requires order == ["totalBTC", "BTC_LTC"] || order == ["BTC_LTC", "totalBTC"]
    ensures SplitVolumes(
      map["totalBTC" := Some(JStr("7364.48")),
          "BTC_LTC" := Some(JObj(map["BTC" := JStr("2.23"), "LTC" := JStr("87.10")]))],
      order)
      == Success(Volume24h(map["totalBTC" := "7364.48"], map["BTC_LTC" := map["BTC" := "2.23", "LTC" := "87.10"]]))
  {
    var vol := Volume24h(map["totalBTC" := "7364.48"], map["BTC_LTC" := map["BTC" := "2.23", "LTC" := "87.10"]]);
    var raw := map["totalBTC" := Some(JStr("7364.48")),
                   "BTC_LTC" := Some(JObj(map["BTC" := JStr("2.23"), "LTC" := JStr("87.10")]))];
    assert (map c | c in vol.markets["BTC_LTC"] :: JStr(vol.markets["BTC_LTC"][c]))
      == map["BTC" := JStr("2.23"), "LTC" := JStr("87.10")];
    assert EncodeVolume(vol) == raw;
    VolumeRoundTrip(vol, order);
  }

  function VolumeRequest(): Request
  {
    PublicRequest("return24hVolume", [])
  }

  /** `Get24hVolume`: a transport failure is returned unchanged; otherwise
      the entries are split, and every key of the response ends up in
      exactly one of the two maps, with its value. */
  function Get24hVolume(fetch: Request -> Result<map<string, Option<JValue>>, Error>, order: seq<string>)
    : (r: Result<Volume24h, Error>)
    requires fetch(VolumeRequest()).Success? ==> IsEnumeration(order, fetch(VolumeRequest()).value)
    ensures fetch(VolumeRequest()).Failure? ==> r == Failure(fetch(VolumeRequest()).error)
    ensures fetch(VolumeRequest()).Success? ==>
      (r.Success? <==> forall k :: k in fetch(VolumeRequest()).value ==> Classified(fetch(VolumeRequest()).value[k]))
    ensures fetch(VolumeRequest()).Success? && r.Success? ==>
      && r.value.markets.Keys !! r.value.primaryCurrenciesTotals.Keys
      && r.value.markets.Keys + r.value.primaryCurrenciesTotals.Keys == fetch(VolumeRequest()).value.Keys
      && r.value == ExpectedVolume(fetch(VolumeRequest()).value)
  {
    match fetch(VolumeRequest())
    case Failure(e) => Failure(e)
    case Success(raw) =>
      SplitVolumesExpected(raw, order);
      SplitVolumes(raw, order)
  }
}

=== FILE: wrappers.dfy ===
/** Failure-carrying datatypes shared by every module of the model. */
module Wrappers {

  /** A value that may be absent: a failed parse, or a Go nil pointer. */
  datatype Option<+T> = None | Some(value: T)

  /** The value-or-error pair a Go function returns as `(T, error)`. */
  datatype Result<+T, +E> = Success(value: T) | Failure(error: E)

  /** How a piece of Go code ends: it returns a value, or it panics
      (a nil pointer dereference). */
  datatype Exec<+T> = Returns(value: T) | Panics
}
